=== FILE: README.md ===
# EMG Muscle Monitoring — signal-interpretation core in Dafny

This project models how the EMG Muscle Monitoring web app turns raw 10-bit
ADC readings (0..1023) into what the user sees, and proves properties of
that model. It covers five parts of the app:

- **The calculation utilities** (`Calculations`):
  - BMI and its four bands;
  - the ADC-to-volts conversion with its uncalibrated Low/Moderate/High level;
  - the calibrated four-band activation status, from a muscle's relaxed and flexed baselines;
  - session-over-session progress;
  - the `mm:ss` clock.
- **The calibration wizard** (`Calibration`). Six muscle groups are walked through Placement → Relaxed → Flexed → Complete. A recording is started by the action button and applied by a 2-second timeout. Back navigation and the progress bar are included.
- **The live-statistics hook** (`EmgHook`). A 500 ms tick keeps a 50-point history and the current, peak, average and duration statistics. It also handles Bluetooth `emgData` events and the start, stop and reset callbacks.
- **The dashboard** (`Dashboard`). It has its own 20-point history, a one-second session timer, End Session, and the "Current Level" percentage.
- **The landing page's profile form** (`LoginPage`). Text fields are read with `parseFloat`. The BMI is recomputed on every height or weight edit. The form is valid when every field is filled.

Two further modules hold shared pieces:

- `Common`: JavaScript's `Math.round`, `Math.max`/`Math.min` clamping, the truncating `%`, `slice(-n)`, sum and mean.
- `Text`: `toString`, `padStart`, and the subset of `parseFloat` the form needs.

Each page is modelled as an immutable state with one pure function per handler. The page's timers, button presses and incoming readings become an event type with `Apply`/`Run`. Invariants are proved over every event sequence.

**Modelling decisions**

- **Numbers.** They are mathematical reals and integers, so JavaScript numbers are not IEEE doubles here:
  - `Math.round(x)` is `floor(x + 0.5)`.
  - `seconds % 60` is the truncating remainder (`JsRem`).
  - Where JavaScript would produce `NaN` or `Infinity`, the model returns `None`. This covers a zero height in `calculateBMI`, an empty current session or a zero previous mean in `calculateMuscleProgress`, and text with no digits in `parseFloat`.
- **Recording.** The recording timeout in the calibration wizard applies what was current when Record was pressed: the step, the group index and the displayed reading. This matches the closure the source's `setTimeout` captures. The model therefore keeps a `pending` record from the press until the `RecordTimeout` event.
- **Wizard invariant.** Back stays usable while a recording is in flight. The invariant still holds in every reachable state, because the action button is disabled while disconnected or recording.
- **Tick average.** The hook's tick averages the history it sees when it runs, which is the history before this tick's point, plus the new value. It recomputes that mean over the whole history on every tick and keeps no running sum.
- **Bad calibrations.** `getActivationStatus` accepts a calibration whose flexed baseline is at or below the relaxed one and classifies readings against it anyway. `DegenerateCalibrationSkipsModerate` and `DegenerateCalibrationExample` prove the consequence: Moderate is never returned, and a reading below the relaxed baseline can be reported as Active.

## Model

| member | source | states |
|---|---|---|
| Common.Clamp | hooks/use-emg-data.ts:40 | `Math.max(lo, Math.min(hi, x))` is at least `lo`, at most `hi` when the range is non-empty, leaves values inside the range unchanged, returns `lo` for any value at or below `lo`, and returns `hi` for any value at or above `hi` when the range is non-empty |
| Common.Round | hooks/use-emg-data.ts:44 | `Math.round` returns the integer nearest its argument, halves rounding up: `r - 0.5 <= x < r + 0.5` |
| Common.RoundMonotone | hooks/use-emg-data.ts:44 | rounding never reverses the order of two values |
| Common.RoundWithin | hooks/use-emg-data.ts:40-44 | a value clamped to integer bounds stays within them after rounding |
| Common.JsRem | utils/calculations.ts:49 | JavaScript's `%` takes the sign of the dividend, with magnitude below the divisor; it is the mathematical remainder for a non-negative dividend, and for a negative one it is the dividend plus the divisor times the truncated quotient of its magnitude, so `-7 % 60` is `-7` |
| Common.KeepLast | hooks/use-emg-data.ts:55-57 | `slice(-n)` keeps `min(n, length)` elements, and they are the suffix of the input |
| Common.KeepLastOfLongSuffix | hooks/use-emg-data.ts:55-57 | dropping a prefix that leaves at least `n` elements does not change the last `n` |
| Common.KeepLastAbsorbs | hooks/use-emg-data.ts:55-57 | trimming to `n` before an append and trimming again after it keeps the same window as trimming once after the append |
| Common.KeepLastStep | hooks/use-emg-data.ts:55-57 | appending one chunk then the rest, trimming after each, equals appending both and trimming once |
| Common.SumBounds | hooks/use-emg-data.ts:64 | the `reduce` sum of values within `[lo, hi]` lies between `count*lo` and `count*hi` |
| Common.MeanBounds | hooks/use-emg-data.ts:64 | the mean of values within `[lo, hi]` lies within `[lo, hi]` |
| Common.MaxOf | hooks/use-emg-data.ts:62 | the largest element is at least every element and is one of them |
| Common.MinOf | hooks/use-emg-data.ts:63-64 | the smallest element is at most every element and is one of them |
| Common.RoundedMeanBetweenMinMax | hooks/use-emg-data.ts:63-69 | the rounded mean of integer values lies between their minimum and maximum |
| Text.NatToString | utils/calculations.ts:50 | `toString` of a whole number is a non-empty digit string, one digit below 10, two below 100, with no leading zero from 10 on |
| Text.IntToString | utils/calculations.ts:50 | `toString` of a non-negative integer is a digit string that reads back as the integer; of a negative one, a `-` followed by at least one digit, the digits reading back as its magnitude |
| Text.PadStart | utils/calculations.ts:50 | `padStart(width, fill)` keeps the text as its suffix, reaches length `max(len, width)`, and fills the front with `fill` only |
| Text.NatToStringRoundTrip | utils/calculations.ts:50 | reading back the decimal digits of `toString(n)` gives `n` |
| Text.LeadingZerosIgnored | utils/calculations.ts:50 | zeros put in front by `padStart` do not change the number the digits denote |
| Text.DigitRun | app/page.tsx:112-113 | the digit prefix `parseFloat` consumes is all digits and stops at the first non-digit |
| Text.DigitRunOfDigits | app/page.tsx:112-113 | on an all-digit text the digit prefix is the whole text |
| Text.ParseFloat | app/page.tsx:112-113 | `parseFloat` gives no number for empty text or text that does not start with a digit, sign or point; a result from text without a leading minus is non-negative; an all-digit text gives its decimal value |
| Text.ParseUnsigned | app/page.tsx:112-113 | the unsigned reader behind `parseFloat` gives no number for empty text or text starting with neither a digit nor a point, and never a negative one |
| Text.ParseFloatDecimal | app/page.tsx:112-113 | digits, a point and digits parse to the whole part plus the fraction digits' value over ten to the number of fraction digits |
| Text.ParseFloatNegative | app/page.tsx:112-113 | a leading `-` before unsigned text gives a number exactly when the text alone does, and then its negation |
| Text.ParseFloatUnsigned | app/page.tsx:112-113 | text that starts with neither sign is read by the unsigned reader alone |
| Text.ParseFloatDecimalExample | app/page.tsx:112-113 | the number input's text "72.5" reads as 72.5 |
| Text.ParseFloatNegativeExample | app/page.tsx:112-113 | the text "-3" reads as -3 |
| Text.ParseFloatOfNat | app/page.tsx:112-113 | `parseFloat` of the decimal text of a whole number gives that number back |
| Calculations.CalculateBmi | utils/calculations.ts:1-4 | the BMI times the squared height in metres is the weight; it is defined exactly when the height is non-zero and is positive for a positive weight |
| Calculations.GetBmiCategory | utils/calculations.ts:6-11 | each category holds exactly on its half-open band with cut-offs 18.5, 25 and 30 |
| Calculations.BmiCategoryMonotone | utils/calculations.ts:6-11 | a larger BMI never falls into a lower band |
| Calculations.ProcessEmgData | utils/calculations.ts:13-36 | voltage is `raw * 5 / 1024`; smoothing is the identity; an in-range reading stays below 5 V; High exactly above raw 614.4 (3 V), Moderate exactly on (307.2, 614.4], Low exactly at or below 307.2 (1.5 V) |
| Calculations.ActivationLevelMonotone | utils/calculations.ts:27-29 | a larger raw value never gets a lower activation level |
| Calculations.GetThresholds | utils/calculations.ts:58-61 | the moderate and active limits split the relaxed-to-flexed range 30/70 and 70/30; the fatigue limit is 1.2 times the flexed baseline |
| Calculations.GetActivationStatus | utils/calculations.ts:53-72 | each status holds exactly when its limit test passes and every earlier test (fatigue, then active, then moderate) fails |
| Calculations.ThresholdsOrdered | utils/calculations.ts:58-61 | with `0 <= relaxed < flexed` the limits are strictly ordered relaxed < moderate < active < flexed < fatigue |
| Calculations.ActivationStatusMonotone | utils/calculations.ts:63-71 | for any baselines, a larger reading never gets a lower status |
| Calculations.EveryStatusReachable | utils/calculations.ts:53-72 | with a sound calibration each of the four statuses is produced by some reading |
| Calculations.WorkedExample | utils/calculations.ts:53-72 | baselines 200 and 600 give limits 320, 480 and 720, with the boundary readings classified as the strict comparisons dictate |
| Calculations.DegenerateCalibrationSkipsModerate | utils/calculations.ts:58-71 | when the flexed baseline is not above the relaxed one, Moderate is never returned |
| Calculations.DegenerateCalibrationExample | utils/calculations.ts:58-71 | baselines 200 and 150 classify the reading 170, below the relaxed baseline, as Active |
| Calculations.CalculateMuscleProgress | utils/calculations.ts:38-45 | 0 with no previous session; undefined exactly when the current session is empty or the previous mean is 0; otherwise the previous mean grown by the result percent equals the current mean, and, when the previous mean is positive, the result is positive or zero exactly when the mean rose or stayed equal |
| Calculations.ParseDuration | utils/calculations.ts:47-51 | the reader of the `mm:ss` format, against which the round trip is stated (the app itself never reads a clock back): it accepts only text with a colon three characters from its end |
| Calculations.FormatDuration | utils/calculations.ts:47-51 | for non-negative seconds the clock is a minutes field worth `floor(seconds/60)`, a colon, and exactly two digits worth `seconds % 60`; the minutes field is two places wide or, when the minutes need more digits, exactly their digits, so under 100 minutes the clock has five characters |
| Calculations.ParseDurationOfFields | utils/calculations.ts:47-51 | the reader turns a clock whose fields are `n / 60` and `n % 60` back into `n` |
| Calculations.FormatDurationRoundTrip | utils/calculations.ts:47-51 | reading the clock text back gives the number of seconds it was made from |
| Calculations.FormatDurationExamples | utils/calculations.ts:47-51 | 0, 75 and 3600 seconds display as `00:00`, `01:15` and `60:00` |
| Calibration.OnSample | app/calibration/page.tsx:40-50 | the readout tick shows an integer in [0, 1023] within half a count of an in-range sample and saturating at both ends, and a voltage in [0, 5] that scales back (divisor 1023) to the clamped sample; nothing else changes |
| Calibration.ContinueFromPlacement | app/calibration/page.tsx:100-108 | Continue on Placement moves to Relaxed and changes nothing else: index, muscles, recording, reading, voltage, connection and the left-page flag are kept |
| Calibration.HandleRecord | app/calibration/page.tsx:61-62 | pressing Record starts a recording that captures the step, group index and displayed reading, stores no baseline yet, and leaves the live reading, voltage and connection alone |
| Calibration.FinishRecord | app/calibration/page.tsx:64-76 | the timeout ends the recording; a captured Relaxed stores the relaxed baseline and moves to Flexed; a captured Flexed stores the flexed baseline, marks the group calibrated and moves to Complete; other groups, the group's identity, the live reading, voltage and connection are untouched |
| Calibration.HandleNext | app/calibration/page.tsx:79-87 | on any group but the last, Next moves to the next group's Placement; on the last it leaves for the dashboard with the wizard state unchanged; the live reading, voltage and connection are kept |
| Calibration.HandleBack | app/calibration/page.tsx:89-98 | Back goes Flexed → Relaxed → Placement, from Placement or Complete to the previous group's Complete, does nothing on the first group's Placement or Complete, and never touches the baselines, the live reading, voltage or connection |
| Calibration.Action | app/calibration/page.tsx:100-131 | the action button runs Continue on Placement (to Relaxed), Record on Relaxed and Flexed (capturing step, index and reading), and Next on Complete (next group's Placement, or leaving the wizard on the last group, with no recording started); the live reading, voltage and connection are never touched |
| Calibration.Apply | app/calibration/page.tsx:228-241 | with the Back visibility and the action-button guard (connected and not recording) applied, every event keeps the indices inside the muscle list |
| Calibration.Run | app/calibration/page.tsx:228-241 | any event sequence keeps the indices inside the muscle list and the list's length |
| Calibration.InitialInv | app/calibration/page.tsx:21-37 | the initial page satisfies the wizard invariant |
| Calibration.FinishRecordInv | app/calibration/page.tsx:64-76 | a finishing recording keeps the wizard invariant |
| Calibration.ApplyInv | app/calibration/page.tsx:40-98 | every event keeps the wizard invariant: calibrated groups have both baselines, groups before the current one are calibrated, Flexed only after a relaxed baseline, Complete only once calibrated |
| Calibration.RunInv | app/calibration/page.tsx:40-98 | every state reachable by any event sequence keeps the wizard invariant |
| Calibration.CalibratedOnlyByFlexedRecord | app/calibration/page.tsx:69-71 | a group becomes calibrated only through a timeout of a recording captured on its own Flexed step, after its relaxed baseline exists |
| Calibration.Progress | app/calibration/page.tsx:59 | progress is the groups done (the index, plus one on a Complete step) over the number of groups, times 100; with the index inside the list it lies in [0, 100] and is 100 exactly on the last group's Complete step |
| Calibration.ProgressBounds | app/calibration/page.tsx:59 | progress lies in [0, 100], is 100 exactly on the last group's Complete step, and then every group is calibrated with both baselines |
| Calibration.ReachableProgress | app/calibration/page.tsx:59 | from the initial page, after any events, progress lies in [0, 100], and at 100 all six groups are calibrated |
| Calibration.RecordRelaxedThenFlexed | app/calibration/page.tsx:61-77 | recording on Relaxed and then on Flexed, with readings v1 and v2, calibrates the current group with exactly those baselines and reaches Complete |
| EmgHook.Values | hooks/use-emg-data.ts:63 | `history.map(h => h.value)` keeps the length and takes each point's value |
| EmgHook.TickValue | hooks/use-emg-data.ts:40-44 | the recorded value is in [0, 1023], within half a count of an in-range sample, and saturates at 0 and 1023 |
| EmgHook.TickVoltage | hooks/use-emg-data.ts:42 | the recorded voltage is in [0, 5] and scales back to the clamped sample with divisor 1023 |
| EmgHook.TickValueMonotone | hooks/use-emg-data.ts:40-44 | a larger sample never records a smaller value |
| EmgHook.Average | hooks/use-emg-data.ts:63-69 | the recorded average is within half a unit of the exact mean of the pre-tick history's values and the new value, and equals the new value on an empty history |
| EmgHook.AverageBetween | hooks/use-emg-data.ts:63-69 | the recorded average lies between the smallest and the largest value averaged |
| EmgHook.Tick | hooks/use-emg-data.ts:40-72 | a tick appends one point and keeps the last 50; the peak is the larger of the old peak and the new value; the average is taken over the pre-tick history plus the new value; duration grows by 0.5 s |
| EmgHook.OnEmgData | hooks/use-emg-data.ts:80-96 | a Bluetooth reading becomes the current value and joins the 50-point history; statistics are unchanged |
| EmgHook.StartRecording | hooks/use-emg-data.ts:102-105 | starting sets the recording flag and zeroes duration and peak only: current, average, history, live value and voltage are kept |
| EmgHook.StopRecording | hooks/use-emg-data.ts:107-109 | stopping only clears the recording flag |
| EmgHook.ResetStats | hooks/use-emg-data.ts:111-119 | reset zeroes all four statistics and empties the history, keeping the recording flag, live value and voltage |
| EmgHook.ApplyHistory | hooks/use-emg-data.ts:55-58 | every event but reset appends its points, if any, and trims to 50 |
| EmgHook.ApplyPeak | hooks/use-emg-data.ts:61-71 | without start or reset, a tick raises the peak to the new value if larger and adds 0.5 s; other events leave the statistics alone |
| EmgHook.HistoryStep | hooks/use-emg-data.ts:55-58 | one event of a reset-free run appends its points and trims, and the rest of the run stays reset-free |
| EmgHook.HistoryIsWindow | hooks/use-emg-data.ts:55-58 | between resets the history is exactly the last `min(50, n)` of everything held and appended, oldest first |
| EmgHook.PeakIsRunningMax | hooks/use-emg-data.ts:61-71 | between starts and resets the peak is at least the old peak and every tick value, equals one of them, and duration is 0.5 s per tick |
| EmgHook.TickKeepsAdcRange | hooks/use-emg-data.ts:40-72 | a tick keeps statistics and history values within [0, 1023] |
| EmgHook.StatsStayInAdcRange | hooks/use-emg-data.ts:40-119 | without Bluetooth readings, statistics and history values stay within [0, 1023] for any event sequence |
| Dashboard.Tick | app/dashboard/page.tsx:104-127 | a sample shows an integer in [0, 1023] within half a count of an in-range sample and saturating at both ends, with a voltage in [0, 5] that scales back (divisor 1023) to the clamped sample, and joins the history, which keeps its last 20 points |
| Dashboard.TimerTick | app/dashboard/page.tsx:130-136 | the timer adds exactly one second and changes nothing else |
| Dashboard.EndSession | app/dashboard/page.tsx:299-303 | End Session zeroes the timer and empties the history but keeps the live value |
| Dashboard.LevelPercent | app/dashboard/page.tsx:424 | the Current Level percentage is within half a point of `value*100/1023`, in [0, 100] for an ADC value, 0 at 0 and 100 at 1023 |
| Dashboard.VoltageDivisorsDiffer | app/dashboard/page.tsx:111 | the dashboard's divisor 1023 reads every positive sample higher than the utility's 1024, and only it reaches exactly 5 V at full scale |
| Dashboard.ApplyEffect | app/dashboard/page.tsx:104-136 | a sample appends its point and trims to 20; a timer tick adds one second |
| Dashboard.SessionWindow | app/dashboard/page.tsx:104-136 | within a session the history is the last `min(20, n)` of the points held and appended, and the timer counts the seconds ticked |
| Dashboard.ClockAfterEndSession | app/dashboard/page.tsx:130-142 | after End Session the clock counts the seconds since, its `mm:ss` text reads back as that count, and the history holds `min(20, samples)` points |
| LoginPage.CalculateBmi | app/page.tsx:111-118 | the form's BMI is positive exactly when both texts parse to positive numbers, and then times the squared height in metres gives the weight; otherwise it is 0 |
| LoginPage.BmiAgreesWithUtility | app/page.tsx:111-118 | on positive inputs the form's BMI equals the utility's BMI |
| LoginPage.BmiExample | app/page.tsx:111-118 | height "180" and weight "81" give BMI 25 |
| LoginPage.HandleInputChange | app/page.tsx:120-126 | an edit stores the text in its field only; a height or weight edit recomputes the BMI from the new texts; an age or gender edit keeps it |
| LoginPage.EditsKeepBmiConsistent | app/page.tsx:120-126 | after any sequence of edits from a consistent form, the shown BMI belongs to the current height and weight texts |
| LoginPage.InitialFormConsistent | app/page.tsx:101-107 | the empty initial form is consistent, so its BMI of 0 hides the BMI badge |
| LoginPage.BmiStatus | app/page.tsx:128-133 | the form's status uses the same four half-open bands, cut-offs 18.5, 25 and 30, as the utility's category |
| LoginPage.IsFormValid | app/page.tsx:135 | the form is valid exactly when no field is empty |
| LoginPage.HandleSubmit | app/page.tsx:137-141 | submit opens the purpose dialog on a valid form and otherwise leaves it as it was |
| LoginPage.FilledFormIsValid | app/page.tsx:120-141 | filling all four fields with non-empty text makes the form valid, and submit then opens the dialog |

## Left out

- Signal generation is left out. The simulated samples (`Math.random`, `Math.sin(Date.now()…)`) and the timestamps (`toISOString`, `toLocaleTimeString`) come from randomness and the clock, so each sample and timestamp is a parameter of its event instead.
- Timer scheduling (`setInterval`, `setTimeout`) and React's batching of state updates are left out. Each timer firing is one atomic event, so any interleaving of ticks, presses and timeouts is covered, but not their timing.
- `toFixed` rounding is not modelled, because it is decimal-string formatting of IEEE doubles; values are kept unrounded as reals.
- Calculations.CalculateBmi: does not round the BMI to one decimal with `toFixed(1)`. A zero height yields `None` where JavaScript yields `Infinity` or `NaN`.
- Calculations.ProcessEmgData: voltage and smoothed are not rounded to two decimals. The level is classified from the unrounded value, as in the source.
- Calculations.CalculateMuscleProgress: does not round the percentage to one decimal. `NaN` and `Infinity` results become `None`.
- LoginPage.CalculateBmi: does not round the BMI to one decimal. With that rounding, a positive BMI below 0.05 would show as 0 and hide the badge.
- Calibration.OnSample: the displayed voltage is not rounded to two decimals.
- EmgHook.TickVoltage: the displayed voltage is not rounded to two decimals.
- Dashboard.Tick: the displayed voltage is not rounded to two decimals.
- `parseFloat` is modelled only on plain decimal text: optional sign, digits, optional fraction. Leading whitespace, exponents, `Infinity` and hexadecimal forms are not modelled; the form's fields are numeric inputs.
- A Bluetooth reading's `emgValue` is taken as an integer. The Bluetooth link and its GATT parsing, which produce the reading, are not part of this model.
- Calculations.FormatDuration is modelled for integer seconds only. Its callers pass whole-second counters. Its contract speaks of non-negative seconds only; for a negative count the body still follows JavaScript, with a minus sign on the minutes and, unless the remainder is zero, on the seconds.
- The calibration wizard's move to the dashboard (`window.location.href`) is modelled only as a `leftWizard` flag after which no event has an effect.
- The shared `muscleGroups` objects are mutated in place through the shallow copy. This aliasing is not modelled; each wizard state owns its list.
- The End Session `alert` and all colour and icon strings are presentation and are left out.
- The purpose dialog's selection (`handlePurposeSelect`) and navigation are left out. So are the analytics, settings and sensor-placement pages, which display data but do not compute any.

=== FILE: calculations.dfy ===
/**
 * The pure calculations behind the EMG pages: BMI and its bands, conversion of
 * a 10-bit ADC reading to volts with an uncalibrated activation level, the
 * calibrated four-band activation status, session-over-session progress and
 * the mm:ss clock.
 */
module Calculations {
  import opened Common
  import opened Text

  // ---------------------------------------------------------------- BMI

  datatype BmiCategory = Underweight | Normal | Overweight | Obese

  function BmiRank(c: BmiCategory): nat
  {
    match c
    case Underweight => 0
    case Normal => 1
    case Overweight => 2
    case Obese => 3
  }

  /** `weight / (height/100)^2` for a height in centimetres; division by zero is `None`. */
  function CalculateBmi(height: real, weight: real): (r: Option<real>)
    ensures r.Some? <==> height != 0.0
    ensures r.Some? ==> r.value * (height / 100.0) * (height / 100.0) == weight
    ensures r.Some? && weight > 0.0 ==> r.value > 0.0
  {
    var heightInMeters := height / 100.0;
    if heightInMeters == 0.0 then None
    else Some(weight / (heightInMeters * heightInMeters))
  }

  /** The four BMI bands with cut-offs 18.5, 25 and 30; each band is half-open. */
  function GetBmiCategory(bmi: real): (c: BmiCategory)
    ensures c == Underweight <==> bmi < 18.5
    ensures c == Normal <==> 18.5 <= bmi < 25.0
    ensures c == Overweight <==> 25.0 <= bmi < 30.0
    ensures c == Obese <==> 30.0 <= bmi
  {
    if bmi < 18.5 then Underweight
    else if bmi < 25.0 then Normal
    else if bmi < 30.0 then Overweight
    else Obese
  }

  /** A larger BMI never falls into a lower band. */
  lemma BmiCategoryMonotone(a: real, b: real)
    requires a <= b
    ensures BmiRank(GetBmiCategory(a)) <= BmiRank(GetBmiCategory(b))
  {
  }

  // ------------------------------------------------- ADC to voltage, level

  datatype ActivationLevel = LowLevel | ModerateLevel | HighLevel

  function LevelRank(l: ActivationLevel): nat
  {
    match l
    case LowLevel => 0
    case ModerateLevel => 1
    case HighLevel => 2
  }

  /** What one raw sample becomes before display. */
  datatype Reading = Reading(voltage: real, smoothed: real, level: ActivationLevel)

  /**
   * Converts a raw 10-bit ADC value to volts on a 5 V reference with divisor
   * 1024, passes it through the (identity) smoothing, and classifies the
   * smoothed voltage against the fixed 1.5 V and 3.0 V limits.
   */
  function ProcessEmgData(rawValue: real): (r: Reading)
    ensures r.voltage * 1024.0 / 5.0 == rawValue
    ensures r.smoothed == r.voltage
    ensures 0.0 <= rawValue <= 1023.0 ==> 0.0 <= r.voltage < 5.0
    ensures r.level == HighLevel <==> rawValue > 614.4
    ensures r.level == ModerateLevel <==> 307.2 < rawValue <= 614.4
    ensures r.level == LowLevel <==> rawValue <= 307.2
  {
    var voltage := rawValue / 1024.0 * 5.0;
    var smoothed := voltage;
    var level := if smoothed > 3.0 then HighLevel else if smoothed > 1.5 then ModerateLevel else LowLevel;
    Reading(voltage, smoothed, level)
  }

  /** A larger raw value never gets a lower activation level. */
  lemma ActivationLevelMonotone(a: real, b: real)
    requires a <= b
    ensures LevelRank(ProcessEmgData(a).level) <= LevelRank(ProcessEmgData(b).level)
  {
  }

  // ------------------------------------------- calibrated activation status

  datatype ActivationStatus = Relaxed | Moderate | Active | Fatigue

  function StatusRank(s: ActivationStatus): nat
  {
    match s
    case Relaxed => 0
    case Moderate => 1
    case Active => 2
    case Fatigue => 3
  }

  /** The three limits derived from a muscle's relaxed and flexed baselines. */
  datatype Thresholds = Thresholds(moderate: real, active: real, fatigue: real)

  function GetThresholds(relaxed: real, flexed: real): (t: Thresholds)
    ensures t.moderate == 0.7 * relaxed + 0.3 * flexed
    ensures t.active == 0.3 * relaxed + 0.7 * flexed
    ensures t.fatigue == 1.2 * flexed
  {
    var range := flexed - relaxed;
    Thresholds(relaxed + range * 0.3, relaxed + range * 0.7, flexed * 1.2)
  }

  /**
   * Classifies a reading against a muscle's baselines, testing the fatigue
   * limit first, then the active limit, then the moderate limit.
   */
  function GetActivationStatus(value: real, relaxed: real, flexed: real): (s: ActivationStatus)
    ensures s == Fatigue <==> value > 1.2 * flexed
    ensures s == Active <==>
      value <= 1.2 * flexed && value > 0.3 * relaxed + 0.7 * flexed
    ensures s == Moderate <==>
      value <= 1.2 * flexed && value <= 0.3 * relaxed + 0.7 * flexed && value > 0.7 * relaxed + 0.3 * flexed
    ensures s == Relaxed <==>
      value <= 1.2 * flexed && value <= 0.3 * relaxed + 0.7 * flexed && value <= 0.7 * relaxed + 0.3 * flexed
  {
    var t := GetThresholds(relaxed, flexed);
    if value > t.fatigue then Fatigue
    else if value > t.active then Active
    else if value > t.moderate then Moderate
    else Relaxed
  }

  /**
   * With a sound calibration (0 <= relaxed < flexed) the limits lie strictly
   * in order relaxed < moderate < active < flexed < fatigue.
   */
  lemma ThresholdsOrdered(relaxed: real, flexed: real)
    requires 0.0 <= relaxed < flexed
    ensures var t := GetThresholds(relaxed, flexed);
      relaxed < t.moderate < t.active < flexed < t.fatigue
  {
  }

  /** For any baselines, a larger reading never gets a lower status. */
  lemma ActivationStatusMonotone(a: real, b: real, relaxed: real, flexed: real)
    requires a <= b
    ensures StatusRank(GetActivationStatus(a, relaxed, flexed))
         <= StatusRank(GetActivationStatus(b, relaxed, flexed))
  {
  }

  /**
   * With a sound calibration every status is produced by some reading: the
   * relaxed baseline reads Relaxed, the midpoint of the middle limits reads
   * Moderate, the flexed baseline reads Active, anything past 1.2x flexed
   * reads Fatigue.
   */
  lemma EveryStatusReachable(relaxed: real, flexed: real)
    requires 0.0 <= relaxed < flexed
    ensures GetActivationStatus(relaxed, relaxed, flexed) == Relaxed
    ensures GetActivationStatus((relaxed + flexed) / 2.0, relaxed, flexed) == Moderate
    ensures GetActivationStatus(flexed, relaxed, flexed) == Active
    ensures GetActivationStatus(1.2 * flexed + 1.0, relaxed, flexed) == Fatigue
  {
  }

  /** Baselines 200 and 600 give limits 320, 480 and 720. */
  lemma WorkedExample()
    ensures GetThresholds(200.0, 600.0) == Thresholds(320.0, 480.0, 720.0)
    ensures GetActivationStatus(319.0, 200.0, 600.0) == Relaxed
    ensures GetActivationStatus(320.0, 200.0, 600.0) == Relaxed
    ensures GetActivationStatus(380.0, 200.0, 600.0) == Moderate
    ensures GetActivationStatus(481.0, 200.0, 600.0) == Active
    ensures GetActivationStatus(720.0, 200.0, 600.0) == Active
    ensures GetActivationStatus(721.0, 200.0, 600.0) == Fatigue
  {
  }

  /**
   * With flexed <= relaxed (a calibration the code does not reject) the active
   * limit falls at or below the moderate one, so Moderate is never returned.
   */
  lemma DegenerateCalibrationSkipsModerate(value: real, relaxed: real, flexed: real)
    requires flexed <= relaxed
    ensures GetActivationStatus(value, relaxed, flexed) != Moderate
  {
  }

  /**
   * Baselines 200 and 150 classify 170, a reading below the relaxed baseline,
   * as Active.
   */
  lemma DegenerateCalibrationExample()
    ensures GetActivationStatus(170.0, 200.0, 150.0) == Active
  {
  }

  // ------------------------------------------------------------- progress

  /**
   * Percentage change of the mean of the current session over the mean of the
   * previous one; 0 when there is no previous session, `None` where the
   * source would produce NaN or Infinity (an empty current session or a zero
   * previous mean).
   */
  function CalculateMuscleProgress(current: seq<real>, previous: seq<real>): (r: Option<real>)
    ensures |previous| == 0 ==> r == Some(0.0)
    ensures |previous| > 0 ==> (r.Some? <==> |current| > 0 && Mean(previous) != 0.0)
    ensures |previous| > 0 && r.Some? ==>
      Mean(previous) + Mean(previous) * r.value / 100.0 == Mean(current)
    ensures |previous| > 0 && r.Some? && Mean(previous) > 0.0 ==>
      (r.value > 0.0 <==> Mean(current) > Mean(previous)) &&
      (r.value == 0.0 <==> Mean(current) == Mean(previous))
  {
    if |previous| == 0 then Some(0.0)
    else if |current| == 0 || Mean(previous) == 0.0 then None
    else
      var currentAvg := Mean(current);
      var previousAvg := Mean(previous);
      var r := (currentAvg - previousAvg) / previousAvg * 100.0;
      assert previousAvg * r / 100.0 == currentAvg - previousAvg;
      Some(r)
  }

  // ----------------------------------------------------------- mm:ss clock

  /**
   * `mm:ss`: minutes `Math.floor(seconds / 60)` and seconds `seconds % 60`
   * (JavaScript's truncating remainder), each left-padded with '0' to two
   * characters.
   */
  function FormatDuration(seconds: int): (r: string)
    ensures seconds >= 0 ==> ClockFields(r, seconds / 60, seconds % 60)
    ensures seconds >= 0 ==> |r| == Max(2, |NatToString(seconds / 60)|) + 3
    ensures 0 <= seconds < 6000 ==> |r| == 5
  {
    var mins := seconds / 60;
    var secs := JsRem(seconds, 60);
    var r := PadStart(IntToString(mins), 2, '0') + ":" + PadStart(IntToString(secs), 2, '0');
    assert seconds >= 0 ==>
      && ClockFields(r, seconds / 60, seconds % 60)
      && |r| == Max(2, |NatToString(seconds / 60)|) + 3
      && (seconds < 6000 ==> |r| == 5)
    by {
      if seconds >= 0 {
        ClockOfSeconds(seconds);
        ClockWidth(seconds);
      }
    }
    r
  }

  /** Reads a clock `m..m:ss` back into seconds; `None` when it is not of that form. */
  function ParseDuration(s: string): (r: Option<nat>)
    ensures r.Some? ==> |s| >= 4 && s[|s| - 3] == ':'
  {
    if |s| < 4 || s[|s| - 3] != ':' then None
    else
      var m := s[..|s| - 3];
      var sec := s[|s| - 2..];
      if AllDigits(m) && AllDigits(sec) then Some(DigitsValue(m) * 60 + DigitsValue(sec))
      else None
  }

  /**
   * `r` is a clock whose minutes field (at least two digits, before the
   * colon) is worth `m` and whose seconds field (the last two digits) is
   * worth `s`.
   */
  predicate ClockFields(r: string, m: nat, s: nat)
  {
    && |r| >= 5
    && r[|r| - 3] == ':'
    && AllDigits(r[..|r| - 3]) && DigitsValue(r[..|r| - 3]) == m
    && AllDigits(r[|r| - 2..]) && DigitsValue(r[|r| - 2..]) == s
  }

  /** The text `FormatDuration` builds for non-negative seconds has the two fields it should. */
  lemma ClockOfSeconds(seconds: nat)
    ensures ClockFields(
      PadStart(IntToString(seconds / 60), 2, '0') + ":" + PadStart(IntToString(JsRem(seconds, 60)), 2, '0'),
      seconds / 60, seconds % 60)
  {
    var mins: nat, secs: nat := seconds / 60, seconds % 60;
    assert JsRem(seconds, 60) == secs;
    PaddedField(mins);
    PaddedField(secs);
    ClockSplit(PadStart(NatToString(mins), 2, '0'), PadStart(NatToString(secs), 2, '0'), mins, secs);
  }

  /**
   * The minutes field is exactly as wide as `padStart` makes it: two places,
   * or the number's own digits when there are more; the seconds field is two.
   */
  lemma ClockWidth(seconds: nat)
    ensures var r := PadStart(IntToString(seconds / 60), 2, '0') + ":" + PadStart(IntToString(JsRem(seconds, 60)), 2, '0');
      && |r| == Max(2, |NatToString(seconds / 60)|) + 3
      && (seconds < 6000 ==> |r| == 5)
  {
    var mins: nat, secs: nat := seconds / 60, seconds % 60;
    assert JsRem(seconds, 60) == secs;
    assert |PadStart(NatToString(secs), 2, '0')| == 2;
    assert |PadStart(NatToString(mins), 2, '0')| == Max(2, |NatToString(mins)|);
  }

  /** A field padded to two places is all digits, keeps its value, and is exactly two wide below 100. */
  lemma PaddedField(n: nat)
    ensures var p := PadStart(NatToString(n), 2, '0');
      && |p| >= 2 && AllDigits(p) && DigitsValue(p) == n
      && (n < 100 ==> |p| == 2)
  {
    var ms := NatToString(n);
    var p := PadStart(ms, 2, '0');
    assert p == p[..|p| - |ms|] + ms;
    LeadingZerosIgnored(p[..|p| - |ms|], ms);
    NatToStringRoundTrip(n);
  }

  /** Joining two digit fields with a colon gives a clock with those fields. */
  lemma ClockSplit(pm: string, ps: string, m: nat, s: nat)
    requires |pm| >= 2 && AllDigits(pm) && DigitsValue(pm) == m
    requires |ps| == 2 && AllDigits(ps) && DigitsValue(ps) == s
    ensures ClockFields(pm + ":" + ps, m, s)
  {
    var r := pm + ":" + ps;
    assert r[..|r| - 3] == pm;
    assert r[|r| - 2..] == ps;
  }

  /** The reader recovers `n` from a clock whose fields are `n / 60` and `n % 60`. */
  lemma ParseDurationOfFields(r: string, n: nat)
    requires ClockFields(r, n / 60, n % 60)
    ensures ParseDuration(r) == Some(n)
  {
    assert (n / 60) * 60 + n % 60 == n;
  }

  /** The clock text determines the number of seconds it was made from. */
  lemma FormatDurationRoundTrip(seconds: int)
    requires seconds >= 0
    ensures ParseDuration(FormatDuration(seconds)) == Some(seconds)
  {
    ParseDurationOfFields(FormatDuration(seconds), seconds);
  }

  lemma FormatDurationExamples()
    ensures FormatDuration(0) == "00:00"
    ensures FormatDuration(75) == "01:15"
    ensures FormatDuration(3600) == "60:00"
  {
    assert IntToString(0) == "0" && IntToString(1) == "1";
    assert IntToString(15) == "15" by {
      assert NatToString(15) == NatToString(1) + "5";
    }
    assert IntToString(60) == "60" by {
      assert NatToString(6) == "6";
      assert NatToString(60) == NatToString(6) + "0";
    }
    assert PadStart("0", 2, '0') == "00";
    assert PadStart("1", 2, '0') == "01";
    assert PadStart("15", 2, '0') == "15" && PadStart("60", 2, '0') == "60";
    assert JsRem(0, 60) == 0 && JsRem(75, 60) == 15 && JsRem(3600, 60) == 0;
    assert FormatDuration(0) == PadStart(IntToString(0), 2, '0') + ":" + PadStart(IntToString(0), 2, '0');
    assert FormatDuration(75) == PadStart(IntToString(1), 2, '0') + ":" + PadStart(IntToString(15), 2, '0');
    assert FormatDuration(3600) == PadStart(IntToString(60), 2, '0') + ":" + PadStart(IntToString(0), 2, '0');
  }
}

=== FILE: calibration.dfy ===
/**
 * The calibration wizard: for each muscle group in turn the user places the
 * sensor, records a relaxed baseline, records a flexed baseline and reaches
 * Complete, then moves to the next group. A recording is started by the
 * action button and finishes when its 2-second timeout fires; the state the
 * timeout applies was captured when the button was pressed.
 */
module Calibration {
  import opened Common

  datatype Step = Placement | Relaxed | Flexed | Complete

  datatype Side = Left | Right

  datatype MuscleGroup = MuscleGroup(
    id: string,
    name: string,
    side: Side,
    icon: string,
    calibrated: bool,
    flexedValue: Option<int>,
    relaxedValue: Option<int>)

  function Uncalibrated(id: string, name: string, side: Side, icon: string): MuscleGroup
  {
    MuscleGroup(id, name, side, icon, false, None, None)
  }

  /** The six groups the wizard walks through, in order. */
  const MuscleGroups: seq<MuscleGroup> := [
    Uncalibrated("bicep-left", "Bicep", Left, "BI-L"),
    Uncalibrated("bicep-right", "Bicep", Right, "BI-R"),
    Uncalibrated("tricep-left", "Tricep", Left, "TR-L"),
    Uncalibrated("tricep-right", "Tricep", Right, "TR-R"),
    Uncalibrated("quadriceps-left", "Quadriceps", Left, "QU-L"),
    Uncalibrated("quadriceps-right", "Quadriceps", Right, "QU-R")
  ]

  /** What a started recording captured when its button was pressed. */
  datatype PendingRecord = PendingRecord(step: Step, index: nat, value: int)

  /**
   * The page state. `pending` is present exactly while `isRecording` is true
   * on the page; `leftWizard` records the navigation to the dashboard.
   */
  datatype Wizard = Wizard(
    index: nat,
    step: Step,
    muscles: seq<MuscleGroup>,
    emgValue: int,
    voltage: real,
    isConnected: bool,
    pending: Option<PendingRecord>,
    leftWizard: bool)

  const Initial: Wizard := Wizard(0, Placement, MuscleGroups, 0, 0.0, false, None, false)

  predicate IsRecording(w: Wizard) { w.pending.Some? }

  /** The current index and any captured index point into the muscle list. */
  predicate WellFormed(w: Wizard)
  {
    && w.index < |w.muscles|
    && (w.pending.Some? ==> w.pending.value.index < |w.muscles|)
  }

  /** Identity fields of a group; only the baselines and the flag ever change. */
  predicate SameGroup(a: MuscleGroup, b: MuscleGroup)
  {
    a.id == b.id && a.name == b.name && a.side == b.side && a.icon == b.icon
  }

  /**
   * One tick of the live readout: the sample is clamped to the ADC range, the
   * displayed value is its rounding and the voltage uses divisor 1023.
   */
  function OnSample(w: Wizard, sample: real): (r: Wizard)
    ensures 0 <= r.emgValue <= 1023
    ensures 0.0 <= r.voltage <= 5.0
    ensures -0.5 <= r.voltage * 1023.0 / 5.0 - r.emgValue as real < 0.5
    ensures r.voltage * 1023.0 / 5.0 == Clamp(sample, 0.0, 1023.0)
    ensures 0.0 <= sample <= 1023.0 ==> -0.5 <= sample - r.emgValue as real < 0.5
    ensures sample <= 0.0 ==> r.emgValue == 0 && r.voltage == 0.0
    ensures sample >= 1023.0 ==> r.emgValue == 1023 && r.voltage == 5.0
    ensures r == w.(emgValue := r.emgValue, voltage := r.voltage)
  {
    var v := Clamp(sample, 0.0, 1023.0);
    RoundWithin(v, 0, 1023);
    assert v / 1023.0 * 5.0 * 1023.0 / 5.0 == v;
    w.(emgValue := Round(v), voltage := v / 1023.0 * 5.0)
  }

  /**
   * Share of the wizard done, in percent: groups finished before the current
   * one, plus the current one once it is Complete, over the number of groups.
   */
  function Progress(w: Wizard): (p: real)
    requires |w.muscles| > 0
    ensures w.index < |w.muscles| ==> 0.0 <= p <= 100.0
    ensures w.index < |w.muscles| ==> (p == 100.0 <==> w.index == |w.muscles| - 1 && w.step == Complete)
    ensures p * |w.muscles| as real == 100.0 * (w.index + (if w.step == Complete then 1 else 0)) as real
  {
    var done := w.index + (if w.step == Complete then 1 else 0);
    var q := done as real / |w.muscles| as real;
    assert w.index < |w.muscles| ==> 0.0 <= q <= 1.0 && (q == 1.0 <==> done == |w.muscles|) by {
      if w.index < |w.muscles| { ShareBounds(done, |w.muscles|); }
    }
    q * 100.0
  }

  /** `done` out of `n` is a share in [0, 1], and the whole exactly when `done == n`. */
  lemma ShareBounds(done: nat, n: nat)
    requires 0 < n && done <= n
    ensures var q := done as real / n as real; 0.0 <= q <= 1.0 && (q == 1.0 <==> done == n)
  {
    var q := done as real / n as real;
    assert q * n as real == done as real;
  }

  /** The action button is enabled only when connected and not recording. */
  predicate ActionEnabled(w: Wizard)
  {
    w.isConnected && !IsRecording(w)
  }

  /**
   * The Back button is shown off the Placement step, except on Relaxed of the
   * first group.
   */
  predicate BackVisible(w: Wizard)
  {
    w.step != Placement && (w.index > 0 || w.step != Relaxed)
  }

  /** The Placement step's action: move on to Relaxed, nothing else. */
  function ContinueFromPlacement(w: Wizard): (r: Wizard)
    ensures r.step == Relaxed
    ensures r.index == w.index && r.muscles == w.muscles && r.pending == w.pending
    ensures r.emgValue == w.emgValue && r.voltage == w.voltage
    ensures r.isConnected == w.isConnected && r.leftWizard == w.leftWizard
  {
    w.(step := Relaxed)
  }

  /**
   * Pressing Record: the step, group index and displayed reading are captured
   * for the timeout; nothing is stored yet.
   */
  function HandleRecord(w: Wizard): (r: Wizard)
    ensures IsRecording(r)
    ensures r.pending.value == PendingRecord(w.step, w.index, w.emgValue)
    ensures r.index == w.index && r.step == w.step && r.muscles == w.muscles
    ensures r.emgValue == w.emgValue && r.voltage == w.voltage
    ensures r.isConnected == w.isConnected && r.leftWizard == w.leftWizard
  {
    w.(pending := Some(PendingRecord(w.step, w.index, w.emgValue)))
  }

  /**
   * The recording's timeout: a captured Relaxed stores the relaxed baseline and
   * moves to Flexed; a captured Flexed stores the flexed baseline, marks the
   * group calibrated and moves to Complete; any other captured step stores
   * nothing. Recording ends in every case.
   */
  function FinishRecord(w: Wizard): (r: Wizard)
    requires WellFormed(w)
    ensures !IsRecording(r)
    ensures r.index == w.index && |r.muscles| == |w.muscles|
    ensures r.emgValue == w.emgValue && r.voltage == w.voltage
    ensures r.isConnected == w.isConnected && r.leftWizard == w.leftWizard
    ensures w.pending.None? ==> r == w
    ensures w.pending.Some? ==>
      var p := w.pending.value;
      && (forall j :: 0 <= j < |w.muscles| && j != p.index ==> r.muscles[j] == w.muscles[j])
      && SameGroup(r.muscles[p.index], w.muscles[p.index])
      && (p.step == Relaxed ==>
            && r.muscles[p.index].relaxedValue == Some(p.value)
            && r.muscles[p.index].flexedValue == w.muscles[p.index].flexedValue
            && r.muscles[p.index].calibrated == w.muscles[p.index].calibrated
            && r.step == Flexed)
      && (p.step == Flexed ==>
            && r.muscles[p.index].flexedValue == Some(p.value)
            && r.muscles[p.index].relaxedValue == w.muscles[p.index].relaxedValue
            && r.muscles[p.index].calibrated
            && r.step == Complete)
      && (p.step != Relaxed && p.step != Flexed ==> r.muscles == w.muscles && r.step == w.step)
  {
    match w.pending
    case None => w
    case Some(p) =>
      var m := w.muscles[p.index];
      if p.step == Relaxed then
        w.(muscles := w.muscles[p.index := m.(relaxedValue := Some(p.value))], step := Flexed, pending := None)
      else if p.step == Flexed then
        w.(muscles := w.muscles[p.index := m.(flexedValue := Some(p.value), calibrated := true)],
           step := Complete, pending := None)
      else
        w.(pending := None)
  }

  /**
   * The Complete step's action: on any group but the last, go to the next
   * group's Placement; on the last group, leave for the dashboard with index
   * and step unchanged.
   */
  function HandleNext(w: Wizard): (r: Wizard)
    requires WellFormed(w)
    ensures r.muscles == w.muscles && r.pending == w.pending
    ensures r.emgValue == w.emgValue && r.voltage == w.voltage && r.isConnected == w.isConnected
    ensures w.index < |w.muscles| - 1 ==> r.index == w.index + 1 && r.step == Placement && r.leftWizard == w.leftWizard
    ensures w.index == |w.muscles| - 1 ==> r.index == w.index && r.step == w.step && r.leftWizard
  {
    if w.index < |w.muscles| - 1 then w.(index := w.index + 1, step := Placement)
    else w.(leftWizard := true)
  }

  /**
   * Back: Flexed returns to Relaxed, Relaxed to Placement; from Placement or
   * Complete it returns to the previous group's Complete step, and on the
   * first group does nothing. The recorded baselines are never touched.
   */
  function HandleBack(w: Wizard): (r: Wizard)
    ensures r.muscles == w.muscles && r.pending == w.pending && r.leftWizard == w.leftWizard
    ensures r.emgValue == w.emgValue && r.voltage == w.voltage && r.isConnected == w.isConnected
    ensures w.step == Flexed ==> r.step == Relaxed && r.index == w.index
    ensures w.step == Relaxed ==> r.step == Placement && r.index == w.index
    ensures w.step in {Placement, Complete} && w.index > 0 ==>
      r.step == Complete && r.index == w.index - 1
    ensures w.step in {Placement, Complete} && w.index == 0 ==> r == w
  {
    if w.step == Flexed then w.(step := Relaxed)
    else if w.step == Relaxed then w.(step := Placement)
    else if w.index > 0 then w.(index := w.index - 1, step := Complete)
    else w
  }

  /**
   * The action button's handler for the current step: Continue on Placement,
   * Record on Relaxed and Flexed, Next on Complete. The live reading and the
   * connection are never touched.
   */
  function Action(w: Wizard): (r: Wizard)
    requires WellFormed(w)
    ensures w.step == Placement ==>
      r.step == Relaxed && r.index == w.index && r.muscles == w.muscles && r.pending == w.pending
    ensures w.step == Relaxed || w.step == Flexed ==>
      && IsRecording(r)
      && r.pending.value == PendingRecord(w.step, w.index, w.emgValue)
      && r.step == w.step && r.index == w.index && r.muscles == w.muscles
    ensures w.step == Complete && w.index < |w.muscles| - 1 ==>
      r.step == Placement && r.index == w.index + 1 && r.muscles == w.muscles && r.pending == w.pending
    ensures w.step == Complete && w.index == |w.muscles| - 1 ==>
      r.leftWizard && r.step == Complete && r.index == w.index && r.muscles == w.muscles && r.pending == w.pending
    ensures w.step != Complete || w.index < |w.muscles| - 1 ==> r.leftWizard == w.leftWizard
    ensures r.emgValue == w.emgValue && r.voltage == w.voltage && r.isConnected == w.isConnected
  {
    match w.step
    case Placement => ContinueFromPlacement(w)
    case Relaxed => HandleRecord(w)
    case Flexed => HandleRecord(w)
    case Complete => HandleNext(w)
  }

  /** What can happen to the page. */
  datatype Event =
    | Sample(raw: real)      // the 100 ms readout tick
    | Connected              // the simulated connection timeout
    | PressAction
    | PressBack
    | RecordTimeout          // the 2-second recording timeout

  /**
   * One event, with the buttons' guards: the action button does nothing unless
   * enabled and Back does nothing unless shown. Once the page has been left,
   * nothing more happens.
   */
  function Apply(w: Wizard, e: Event): (r: Wizard)
    requires WellFormed(w)
    ensures WellFormed(r) && |r.muscles| == |w.muscles|
  {
    if w.leftWizard then w
    else
      match e
      case Sample(raw) => OnSample(w, raw)
      case Connected => w.(isConnected := true)
      case PressAction => if ActionEnabled(w) then Action(w) else w
      case PressBack => if BackVisible(w) then HandleBack(w) else w
      case RecordTimeout => FinishRecord(w)
  }

  function Run(w: Wizard, es: seq<Event>): (r: Wizard)
    requires WellFormed(w)
    ensures WellFormed(r) && |r.muscles| == |w.muscles|
    decreases |es|
  {
    if |es| == 0 then w else Run(Apply(w, es[0]), es[1..])
  }

  /**
   * What holds in every reachable state: the groups keep their identity; a
   * calibrated group has both baselines; every group before the current one is
   * calibrated; Flexed is only reached once the relaxed baseline exists;
   * Complete only once the group is calibrated; and a recording in flight
   * was started on Relaxed or Flexed of a group at or after the current one.
   */
  predicate Inv(w: Wizard)
  {
    && WellFormed(w)
    && |w.muscles| == |MuscleGroups|
    && (forall j :: 0 <= j < |w.muscles| ==> SameGroup(w.muscles[j], MuscleGroups[j]))
    && (forall j :: 0 <= j < |w.muscles| && w.muscles[j].calibrated ==>
          w.muscles[j].relaxedValue.Some? && w.muscles[j].flexedValue.Some?)
    && (forall j :: 0 <= j < w.index ==> w.muscles[j].calibrated)
    && (w.step == Flexed ==> w.muscles[w.index].relaxedValue.Some?)
    && (w.step == Complete ==> w.muscles[w.index].calibrated)
    && (w.pending.Some? ==>
          var p := w.pending.value;
          && (p.step == Relaxed || p.step == Flexed)
          && w.index <= p.index
          && (forall j :: 0 <= j < p.index ==> w.muscles[j].calibrated)
          && (p.step == Flexed ==> w.muscles[p.index].relaxedValue.Some?))
  }

  lemma InitialInv()
    ensures Inv(Initial)
  {
  }

  lemma {:induction false} FinishRecordInv(w: Wizard)
    requires Inv(w)
    ensures Inv(FinishRecord(w))
  {
    var r := FinishRecord(w);
    if w.pending.Some? {
      var p := w.pending.value;
      forall j | 0 <= j < |r.muscles| && r.muscles[j].calibrated
        ensures r.muscles[j].relaxedValue.Some? && r.muscles[j].flexedValue.Some?
      {
        if j != p.index {
          assert r.muscles[j] == w.muscles[j];
        }
      }
      forall j | 0 <= j < r.index
        ensures r.muscles[j].calibrated
      {
        assert w.muscles[j].calibrated;
        if j != p.index {
          assert r.muscles[j] == w.muscles[j];
        }
      }
      if r.index < p.index {
        assert w.muscles[r.index].calibrated;
        assert r.muscles[r.index] == w.muscles[r.index];
      }
    }
  }

  lemma ApplyInv(w: Wizard, e: Event)
    requires Inv(w)
    ensures Inv(Apply(w, e))
  {
    if !w.leftWizard && e == RecordTimeout {
      FinishRecordInv(w);
    }
  }

  /** Every state reachable from `w` by any events keeps the invariant. */
  lemma {:induction false} RunInv(w: Wizard, es: seq<Event>)
    requires Inv(w)
    ensures Inv(Run(w, es))
    decreases |es|
  {
    if |es| > 0 {
      ApplyInv(w, es[0]);
      RunInv(Apply(w, es[0]), es[1..]);
    }
  }

  /**
   * A group only becomes calibrated when a recording captured on its own
   * Flexed step finishes.
   */
  lemma CalibratedOnlyByFlexedRecord(w: Wizard, e: Event, j: nat)
    requires Inv(w) && j < |w.muscles|
    requires !w.muscles[j].calibrated && Apply(w, e).muscles[j].calibrated
    ensures e == RecordTimeout && w.pending.Some?
    ensures w.pending.value.step == Flexed && w.pending.value.index == j
    ensures w.muscles[j].relaxedValue.Some?
  {
  }

  /**
   * In every reachable state progress lies in [0, 100]; it is 100 exactly on
   * the last group's Complete step, and then every group is calibrated with
   * both baselines recorded.
   */
  lemma ProgressBounds(w: Wizard)
    requires Inv(w)
    ensures 0.0 <= Progress(w) <= 100.0
    ensures Progress(w) == 100.0 <==> w.index == |w.muscles| - 1 && w.step == Complete
    ensures Progress(w) == 100.0 ==> forall j :: 0 <= j < |w.muscles| ==>
      w.muscles[j].calibrated && w.muscles[j].relaxedValue.Some? && w.muscles[j].flexedValue.Some?
  {
    var n := |w.muscles| as real;
    var done := w.index + (if w.step == Complete then 1 else 0);
    assert done <= |w.muscles|;
    assert Progress(w) == done as real / n * 100.0;
    assert Progress(w) == 100.0 <==> done as real / n == 1.0;
    assert done as real / n == 1.0 <==> done as real == n;
    if Progress(w) == 100.0 {
      forall j | 0 <= j < |w.muscles|
        ensures w.muscles[j].calibrated
      {
        if j < w.index {
        } else {
          assert j == w.index;
        }
      }
    }
  }

  /** The invariant and the progress bounds hold after any run from the start. */
  lemma ReachableProgress(es: seq<Event>)
    ensures Inv(Run(Initial, es))
    ensures 0.0 <= Progress(Run(Initial, es)) <= 100.0
    ensures Progress(Run(Initial, es)) == 100.0 ==>
      forall j :: 0 <= j < |MuscleGroups| ==> Run(Initial, es).muscles[j].calibrated
  {
    InitialInv();
    RunInv(Initial, es);
    ProgressBounds(Run(Initial, es));
  }

  /** Relaxed then Flexed records with values `v1` and `v2` calibrate the group. */
  lemma RecordRelaxedThenFlexed(w: Wizard, v1: int, v2: int)
    requires Inv(w) && !w.leftWizard && w.step == Relaxed && ActionEnabled(w)
    ensures
      var w1 := Apply(Apply(Apply(w, Sample(v1 as real)), PressAction), RecordTimeout);
      var w2 := Apply(Apply(Apply(w1, Sample(v2 as real)), PressAction), RecordTimeout);
      0 <= v1 <= 1023 && 0 <= v2 <= 1023 ==>
        && w2.index == w.index && w2.step == Complete
        && w2.muscles[w.index].calibrated
        && w2.muscles[w.index].relaxedValue == Some(v1)
        && w2.muscles[w.index].flexedValue == Some(v2)
  {
  }
}

=== FILE: common.dfy ===
/**
 * Small building blocks shared by every page of the EMG dashboard: an Option
 * type for results that JavaScript would report as NaN or Infinity, the
 * clamping and rounding the pages apply to raw samples, `Array.slice(-n)`
 * for bounded histories, and sums and means over readings.
 */
module Common {

  /** A value that may be missing; `None` stands for a NaN or non-finite result. */
  datatype Option<+T> = None | Some(value: T)

  /** `Math.max(lo, Math.min(hi, x))`, the clamp every simulated sample goes through. */
  function Clamp(x: real, lo: real, hi: real): (r: real)
    ensures lo <= r
    ensures lo <= hi ==> r <= hi
    ensures lo <= x <= hi ==> r == x
    ensures r != x ==> r == lo || r == hi
    ensures x <= lo ==> r == lo
    ensures lo <= hi && hi <= x ==> r == hi
  {
    var m := if x < hi then x else hi;
    if m > lo then m else lo
  }

  /** `Math.round`: the nearest integer, halves rounded towards +infinity. */
  function Round(x: real): (r: int)
    ensures r as real - 0.5 <= x < r as real + 0.5
  {
    (x + 0.5).Floor
  }

  lemma RoundMonotone(x: real, y: real)
    requires x <= y
    ensures Round(x) <= Round(y)
  {
  }

  /** Rounding a value inside an integer interval stays inside it. */
  lemma RoundWithin(x: real, lo: int, hi: int)
    requires lo as real <= x <= hi as real
    ensures lo <= Round(x) <= hi
  {
  }

  /** JavaScript's `a % b` for integers: the remainder takes the sign of `a`. */
  function JsRem(a: int, b: int): (r: int)
    requires b > 0
    ensures a >= 0 ==> 0 <= r < b
    ensures a < 0 ==> -b < r <= 0
    ensures a >= 0 ==> r == a % b
    ensures a < 0 ==> r == a + ((-a) / b) * b
  {
    if a >= 0 then a % b else -((-a) % b)
  }

  function Min(a: int, b: int): int { if a <= b then a else b }

  function Max(a: int, b: int): int { if a >= b then a else b }

  /**
   * `s.slice(-n)` for a positive `n`: the last `n` elements of `s`, or all of
   * `s` when it is shorter.
   */
  function KeepLast<T>(s: seq<T>, n: nat): (r: seq<T>)
    requires n > 0
    ensures |r| == Min(n, |s|)
    ensures r == s[|s| - |r|..]
  {
    if |s| <= n then s else s[|s| - n..]
  }

  /**
   * Keeping the last `n` of any suffix that is at least that long gives the
   * same window as keeping the last `n` of the whole sequence.
   */
  lemma KeepLastOfLongSuffix<T>(s: seq<T>, k: nat, n: nat)
    requires n > 0 && k <= |s| && |s| - k >= Min(n, |s|)
    ensures KeepLast(s[k..], n) == KeepLast(s, n)
  {
    var t := s[k..];
    var a := KeepLast(t, n);
    var b := KeepLast(s, n);
    assert |a| == |b|;
    forall i | 0 <= i < |a|
      ensures a[i] == b[i]
    {
      assert a[i] == t[|t| - |a| + i];
      assert t[|t| - |a| + i] == s[k + |t| - |a| + i];
    }
  }

  /** Trimming before an append does not change the window after it. */
  lemma KeepLastAbsorbs<T>(a: seq<T>, b: seq<T>, n: nat)
    requires n > 0
    ensures KeepLast(KeepLast(a, n) + b, n) == KeepLast(a + b, n)
  {
    var k := |a| - |KeepLast(a, n)|;
    assert (a + b)[k..] == KeepLast(a, n) + b;
    KeepLastOfLongSuffix(a + b, k, n);
  }

  /**
   * One step of a bounded log: appending `p` and trimming, then appending
   * `rest` and trimming, keeps the same window as appending `p + rest` at once.
   */
  lemma KeepLastStep<T>(h: seq<T>, p: seq<T>, rest: seq<T>, n: nat)
    requires n > 0
    ensures KeepLast(KeepLast(h + p, n) + rest, n) == KeepLast(h + (p + rest), n)
  {
    KeepLastAbsorbs(h + p, rest, n);
    assert (h + p) + rest == h + (p + rest);
  }

  /** `xs.reduce((sum, val) => sum + val, 0)`. */
  function Sum(xs: seq<real>): real
    decreases |xs|
  {
    if |xs| == 0 then 0.0 else Sum(xs[..|xs| - 1]) + xs[|xs| - 1]
  }

  /** Arithmetic mean of a non-empty sequence. */
  function Mean(xs: seq<real>): real
    requires |xs| > 0
  {
    Sum(xs) / |xs| as real
  }

  /** A sum of values inside [lo, hi] lies between |xs|*lo and |xs|*hi. */
  lemma {:induction false} SumBounds(xs: seq<real>, lo: real, hi: real)
    requires forall i :: 0 <= i < |xs| ==> lo <= xs[i] <= hi
    ensures |xs| as real * lo <= Sum(xs) <= |xs| as real * hi
    decreases |xs|
  {
    if |xs| > 0 {
      var init := xs[..|xs| - 1];
      SumBounds(init, lo, hi);
      var m := |init| as real;
      assert |xs| as real * lo == m * lo + lo;
      assert |xs| as real * hi == m * hi + hi;
    }
  }

  /** The mean of values inside [lo, hi] lies inside [lo, hi]. */
  lemma MeanBounds(xs: seq<real>, lo: real, hi: real)
    requires |xs| > 0
    requires forall i :: 0 <= i < |xs| ==> lo <= xs[i] <= hi
    ensures lo <= Mean(xs) <= hi
  {
    SumBounds(xs, lo, hi);
    var n := |xs| as real;
    assert n * lo <= Sum(xs) <= n * hi;
    assert Mean(xs) * n == Sum(xs);
  }

  /** Largest element of a non-empty integer sequence. */
  function MaxOf(xs: seq<int>): (m: int)
    requires |xs| > 0
    ensures forall i :: 0 <= i < |xs| ==> xs[i] <= m
    ensures exists i :: 0 <= i < |xs| && xs[i] == m
    decreases |xs|
  {
    if |xs| == 1 then xs[0]
    else
      var m' := MaxOf(xs[..|xs| - 1]);
      assert forall i :: 0 <= i < |xs| - 1 ==> xs[..|xs| - 1][i] == xs[i];
      Max(m', xs[|xs| - 1])
  }

  /** Smallest element of a non-empty integer sequence. */
  function MinOf(xs: seq<int>): (m: int)
    requires |xs| > 0
    ensures forall i :: 0 <= i < |xs| ==> m <= xs[i]
    ensures exists i :: 0 <= i < |xs| && xs[i] == m
    decreases |xs|
  {
    if |xs| == 1 then xs[0]
    else
      var m' := MinOf(xs[..|xs| - 1]);
      assert forall i :: 0 <= i < |xs| - 1 ==> xs[..|xs| - 1][i] == xs[i];
      Min(m', xs[|xs| - 1])
  }

  /** Each integer as a real, so integer readings can be averaged. */
  function AsReals(xs: seq<int>): (r: seq<real>)
    ensures |r| == |xs|
    ensures forall i :: 0 <= i < |xs| ==> r[i] == xs[i] as real
  {
    seq(|xs|, i requires 0 <= i < |xs| => xs[i] as real)
  }

  /** The rounded mean of integers lies between their minimum and maximum. */
  lemma RoundedMeanBetweenMinMax(xs: seq<int>)
    requires |xs| > 0
    ensures MinOf(xs) <= Round(Mean(AsReals(xs))) <= MaxOf(xs)
  {
    var rs := AsReals(xs);
    MeanBounds(rs, MinOf(xs) as real, MaxOf(xs) as real);
    RoundWithin(Mean(rs), MinOf(xs), MaxOf(xs));
  }
}

=== FILE: dashboard.dfy ===
/**
 * The dashboard's own copy of the live pipeline: a 500 ms sample tick feeding
 * a 20-point history, a one-second session timer shown as mm:ss, the End
 * Session reset, and the per-muscle "current level" percentage.
 */
module Dashboard {
  import opened Common
  import Calculations

  const HistoryCapacity: nat := 20

  datatype EmgPoint = EmgPoint(timestamp: string, value: int, voltage: real)

  datatype DashState = DashState(
    currentEmg: int,
    currentVoltage: real,
    history: seq<EmgPoint>,
    sessionDuration: nat)

  const Initial: DashState := DashState(567, 2.8, [], 0)

  /** Volts for a clamped sample; this page divides by 1023, not 1024. */
  function Voltage(value: real): real
  {
    value / 1023.0 * 5.0
  }

  /**
   * One sample tick: the sample is clamped to [0, 1023]; the shown value is
   * its rounding; the point joins the history, which keeps its last 20.
   */
  function Tick(d: DashState, sample: real, now: string): (r: DashState)
    ensures 0 <= r.currentEmg <= 1023
    ensures 0.0 <= r.currentVoltage <= 5.0
    ensures -0.5 <= r.currentVoltage * 1023.0 / 5.0 - r.currentEmg as real < 0.5
    ensures r.currentVoltage * 1023.0 / 5.0 == Clamp(sample, 0.0, 1023.0)
    ensures 0.0 <= sample <= 1023.0 ==> -0.5 <= sample - r.currentEmg as real < 0.5
    ensures sample >= 1023.0 ==> r.currentEmg == 1023 && r.currentVoltage == 5.0
    ensures sample <= 0.0 ==> r.currentEmg == 0 && r.currentVoltage == 0.0
    ensures r.history == KeepLast(d.history + [EmgPoint(now, r.currentEmg, r.currentVoltage)], HistoryCapacity)
    ensures |r.history| <= HistoryCapacity
    ensures r.sessionDuration == d.sessionDuration
  {
    var newValue := Clamp(sample, 0.0, 1023.0);
    RoundWithin(newValue, 0, 1023);
    assert Voltage(newValue) * 1023.0 / 5.0 == newValue;
    var point := PointOf(sample, now);
    d.(currentEmg := point.value,
       currentVoltage := point.voltage,
       history := KeepLast(d.history + [point], HistoryCapacity))
  }

  /** The session timer's one-second tick. */
  function TimerTick(d: DashState): (r: DashState)
    ensures r.sessionDuration == d.sessionDuration + 1
    ensures r.history == d.history && r.currentEmg == d.currentEmg && r.currentVoltage == d.currentVoltage
  {
    d.(sessionDuration := d.sessionDuration + 1)
  }

  /** End Session: the timer and the history start over; the live value stays. */
  function EndSession(d: DashState): (r: DashState)
    ensures r.sessionDuration == 0 && |r.history| == 0
    ensures r.currentEmg == d.currentEmg && r.currentVoltage == d.currentVoltage
  {
    d.(sessionDuration := 0, history := [])
  }

  /** "Current Level": a muscle's value as a rounded percentage of full scale. */
  function LevelPercent(currentValue: int): (p: int)
    ensures 0 <= currentValue <= 1023 ==> 0 <= p <= 100
    ensures -0.5 <= currentValue as real * 100.0 / 1023.0 - p as real < 0.5
    ensures currentValue == 0 ==> p == 0
    ensures currentValue == 1023 ==> p == 100
  {
    var x := currentValue as real / 1023.0 * 100.0;
    assert x == currentValue as real * 100.0 / 1023.0;
    assert 0 <= currentValue <= 1023 ==> 0 <= Round(x) <= 100 by {
      if 0 <= currentValue <= 1023 {
        RoundWithin(x, 0, 100);
      }
    }
    Round(x)
  }

  /**
   * The dashboard's divisor 1023 reads every positive sample slightly higher
   * than the utility's divisor 1024, and maps full scale to exactly 5 V where
   * the utility stays below it.
   */
  lemma VoltageDivisorsDiffer(raw: real)
    requires 0.0 < raw <= 1023.0
    ensures Voltage(raw) > Calculations.ProcessEmgData(raw).voltage
    ensures raw == 1023.0 ==> Voltage(raw) == 5.0 && Calculations.ProcessEmgData(raw).voltage < 5.0
  {
  }

  datatype Event =
    | Sample(sample: real, now: string)
    | Second
    | End

  function Apply(d: DashState, e: Event): DashState
  {
    match e
    case Sample(sample, now) => Tick(d, sample, now)
    case Second => TimerTick(d)
    case End => EndSession(d)
  }

  function Run(d: DashState, es: seq<Event>): DashState
    decreases |es|
  {
    if |es| == 0 then d else Run(Apply(d, es[0]), es[1..])
  }

  /** The point a sample tick appends. */
  function PointOf(sample: real, now: string): EmgPoint
  {
    var v := Clamp(sample, 0.0, 1023.0);
    EmgPoint(now, Round(v), Voltage(v))
  }

  /** All points a run appends, oldest first. */
  function Appended(es: seq<Event>): seq<EmgPoint>
    decreases |es|
  {
    if |es| == 0 then []
    else (if es[0].Sample? then [PointOf(es[0].sample, es[0].now)] else []) + Appended(es[1..])
  }

  /** How many timer ticks a run contains. */
  function Seconds(es: seq<Event>): nat
    decreases |es|
  {
    if |es| == 0 then 0 else (if es[0].Second? then 1 else 0) + Seconds(es[1..])
  }

  predicate NoEnd(es: seq<Event>) { forall i :: 0 <= i < |es| ==> !es[i].End? }

  lemma ApplyEffect(d: DashState, e: Event)
    requires !e.End? && |d.history| <= HistoryCapacity
    ensures Apply(d, e).history ==
      KeepLast(d.history + (if e.Sample? then [PointOf(e.sample, e.now)] else []), HistoryCapacity)
    ensures Apply(d, e).sessionDuration == d.sessionDuration + (if e.Second? then 1 else 0)
  {
    if e.Second? {
      assert d.history + [] == d.history;
    }
  }

  /**
   * Within a session the history is the last min(20, n) of the n points held
   * and appended, oldest first, and the timer has advanced once per second.
   */
  lemma {:induction false} SessionWindow(d: DashState, es: seq<Event>)
    requires |d.history| <= HistoryCapacity
    requires NoEnd(es)
    ensures Run(d, es).history == KeepLast(d.history + Appended(es), HistoryCapacity)
    ensures Run(d, es).sessionDuration == d.sessionDuration + Seconds(es)
    decreases |es|
  {
    if |es| == 0 {
      assert d.history + [] == d.history;
    } else {
      var e := es[0];
      var p0: seq<EmgPoint> := if e.Sample? then [PointOf(e.sample, e.now)] else [];
      var rest := Appended(es[1..]);
      ApplyEffect(d, e);
      SessionWindow(Apply(d, e), es[1..]);
      KeepLastStep(d.history, p0, rest, HistoryCapacity);
    }
  }

  /**
   * After End Session, the clock shows the number of timer ticks since, and
   * reading the clock text back gives that number.
   */
  lemma ClockAfterEndSession(d: DashState, es: seq<Event>)
    requires NoEnd(es)
    ensures Run(EndSession(d), es).sessionDuration == Seconds(es)
    ensures Calculations.ParseDuration(Calculations.FormatDuration(Run(EndSession(d), es).sessionDuration))
         == Some(Seconds(es))
    ensures |Run(EndSession(d), es).history| == Min(HistoryCapacity, |Appended(es)|)
  {
    SessionWindow(EndSession(d), es);
    Calculations.FormatDurationRoundTrip(Seconds(es));
  }
}

=== FILE: emg_hook.dfy ===
/**
 * The live-statistics hook: every 500 ms tick takes one sample, appends it to a
 * history holding the 50 most recent points and updates current, peak,
 * average and duration; readings arriving from the Bluetooth link are
 * appended to the same history without touching the statistics.
 */
module EmgHook {
  import opened Common

  const HistoryCapacity: nat := 50

  datatype DataPoint = DataPoint(timestamp: string, value: int, voltage: real, muscleGroup: string)

  datatype Stats = Stats(current: int, peak: int, average: int, duration: real)

  datatype EmgState = EmgState(
    muscleGroup: string,
    currentValue: int,
    currentVoltage: real,
    history: seq<DataPoint>,
    stats: Stats,
    isRecording: bool)

  /** The payload of an `emgData` event dispatched by the Bluetooth link. */
  datatype EmgReading = EmgReading(
    deviceId: string,
    muscleGroup: string,
    emgValue: int,
    voltage: real,
    timestamp: string,
    sessionId: string,
    userId: string)

  const ZeroStats: Stats := Stats(0, 0, 0, 0.0)

  function Initial(muscleGroup: string): EmgState
  {
    EmgState(muscleGroup, 0, 0.0, [], ZeroStats, false)
  }

  function Values(h: seq<DataPoint>): (vs: seq<int>)
    ensures |vs| == |h|
    ensures forall i :: 0 <= i < |h| ==> vs[i] == h[i].value
  {
    seq(|h|, i requires 0 <= i < |h| => h[i].value)
  }

  /** The point appended and the value recorded for one sample. */
  function TickValue(sample: real): (v: int)
    ensures 0 <= v <= 1023
    ensures 0.0 <= sample <= 1023.0 ==> -0.5 <= sample - v as real < 0.5
    ensures sample < 0.0 ==> v == 0
    ensures sample > 1023.0 ==> v == 1023
  {
    var emgValue := Clamp(sample, 0.0, 1023.0);
    RoundWithin(emgValue, 0, 1023);
    Round(emgValue)
  }

  /** A larger sample never records a smaller value. */
  lemma TickValueMonotone(a: real, b: real)
    requires a <= b
    ensures TickValue(a) <= TickValue(b)
  {
    RoundMonotone(Clamp(a, 0.0, 1023.0), Clamp(b, 0.0, 1023.0));
  }

  /** The history point a tick appends for one sample. */
  function TickPoint(muscleGroup: string, sample: real, now: string): DataPoint
  {
    DataPoint(now, TickValue(sample), TickVoltage(sample), muscleGroup)
  }

  /**
   * The average a tick records: the rounded mean of the values already in the
   * history together with the new value.
   */
  function Average(h: seq<DataPoint>, value: int): (r: int)
    ensures var m := Mean(AsReals(Values(h) + [value])); r as real - 0.5 <= m < r as real + 0.5
    ensures |h| == 0 ==> r == value
  {
    var all := Values(h) + [value];
    assert |h| == 0 ==> Mean(AsReals(all)) == value as real by {
      if |h| == 0 {
        var rs := AsReals(all);
        assert rs == [value as real];
        assert rs[..0] == [];
        assert Sum(rs) == value as real;
      }
    }
    Round(Mean(AsReals(all)))
  }

  /** The recorded average lies between the smallest and the largest value it averages. */
  lemma AverageBetween(h: seq<DataPoint>, value: int)
    ensures var all := Values(h) + [value];
      MinOf(all) <= Average(h, value) <= MaxOf(all)
  {
    RoundedMeanBetweenMinMax(Values(h) + [value]);
  }

  /** The volts a tick records for one sample: the clamped sample scaled by 5 / 1023. */
  function TickVoltage(sample: real): (v: real)
    ensures 0.0 <= v <= 5.0
    ensures v * 1023.0 / 5.0 == Clamp(sample, 0.0, 1023.0)
  {
    Clamp(sample, 0.0, 1023.0) / 1023.0 * 5.0
  }

  /**
   * One tick: the sample is clamped to [0, 1023] and rounded; the point joins
   * the history, which keeps its last 50 entries; the peak becomes the larger
   * of the old peak and the new value; the average is the rounded mean of the
   * history before this tick together with the new value; the duration grows
   * by half a second.
   */
  function Tick(s: EmgState, sample: real, now: string): (r: EmgState)
    ensures r.currentValue == r.stats.current == TickValue(sample)
    ensures r.currentVoltage == TickVoltage(sample)
    ensures r.history == KeepLast(s.history + [DataPoint(now, r.currentValue, r.currentVoltage, s.muscleGroup)], HistoryCapacity)
    ensures |r.history| <= HistoryCapacity
    ensures r.stats.peak == Max(s.stats.peak, r.stats.current)
    ensures r.stats.peak >= r.stats.current && r.stats.peak >= s.stats.peak
    ensures r.stats.average == Average(s.history, r.stats.current)
    ensures r.stats.duration == s.stats.duration + 0.5
    ensures r.isRecording == s.isRecording && r.muscleGroup == s.muscleGroup
  {
    var voltage := TickVoltage(sample);
    var value := TickValue(sample);
    var point := TickPoint(s.muscleGroup, sample, now);
    s.(currentValue := value,
       currentVoltage := voltage,
       history := KeepLast(s.history + [point], HistoryCapacity),
       stats := Stats(value, Max(s.stats.peak, value), Average(s.history, value), s.stats.duration + 0.5))
  }

  /**
   * An `emgData` event: the reading becomes the current value and voltage and
   * joins the bounded history; the statistics are left alone.
   */
  function OnEmgData(s: EmgState, e: EmgReading): (r: EmgState)
    ensures r.currentValue == e.emgValue && r.currentVoltage == e.voltage
    ensures r.history == KeepLast(s.history + [DataPoint(e.timestamp, e.emgValue, e.voltage, e.muscleGroup)], HistoryCapacity)
    ensures |r.history| <= HistoryCapacity
    ensures r.stats == s.stats && r.isRecording == s.isRecording && r.muscleGroup == s.muscleGroup
  {
    var point := DataPoint(e.timestamp, e.emgValue, e.voltage, e.muscleGroup);
    s.(currentValue := e.emgValue, currentVoltage := e.voltage,
       history := KeepLast(s.history + [point], HistoryCapacity))
  }

  /** Starting a recording zeroes duration and peak; current and average stay. */
  function StartRecording(s: EmgState): (r: EmgState)
    ensures r.isRecording
    ensures r.stats.duration == 0.0 && r.stats.peak == 0
    ensures r.stats.current == s.stats.current && r.stats.average == s.stats.average
    ensures r.history == s.history && r.currentValue == s.currentValue && r.currentVoltage == s.currentVoltage
    ensures r.muscleGroup == s.muscleGroup
  {
    s.(isRecording := true, stats := s.stats.(duration := 0.0, peak := 0))
  }

  /** Stopping a recording only clears the recording flag. */
  function StopRecording(s: EmgState): (r: EmgState)
    ensures !r.isRecording
    ensures r.stats == s.stats && r.history == s.history
    ensures r.currentValue == s.currentValue && r.currentVoltage == s.currentVoltage
    ensures r.muscleGroup == s.muscleGroup
  {
    s.(isRecording := false)
  }

  /** Resetting zeroes all four statistics and empties the history. */
  function ResetStats(s: EmgState): (r: EmgState)
    ensures r.stats.current == 0 && r.stats.peak == 0 && r.stats.average == 0 && r.stats.duration == 0.0
    ensures |r.history| == 0
    ensures r.isRecording == s.isRecording && r.currentValue == s.currentValue
    ensures r.currentVoltage == s.currentVoltage && r.muscleGroup == s.muscleGroup
  {
    s.(stats := ZeroStats, history := [])
  }

  datatype Event =
    | TickEvent(sample: real, now: string)
    | Bluetooth(reading: EmgReading)
    | Start
    | Stop
    | Reset

  function Apply(s: EmgState, e: Event): EmgState
  {
    match e
    case TickEvent(sample, now) => Tick(s, sample, now)
    case Bluetooth(reading) => OnEmgData(s, reading)
    case Start => StartRecording(s)
    case Stop => StopRecording(s)
    case Reset => ResetStats(s)
  }

  function Run(s: EmgState, es: seq<Event>): EmgState
    decreases |es|
  {
    if |es| == 0 then s else Run(Apply(s, es[0]), es[1..])
  }

  /** The history point an event appends, if any, for a hook on `muscleGroup`. */
  function PointsOf(muscleGroup: string, e: Event): seq<DataPoint>
  {
    match e
    case TickEvent(sample, now) => [TickPoint(muscleGroup, sample, now)]
    case Bluetooth(r) => [DataPoint(r.timestamp, r.emgValue, r.voltage, r.muscleGroup)]
    case _ => []
  }

  /** All points a run of events appends, in arrival order. */
  function Appended(muscleGroup: string, es: seq<Event>): seq<DataPoint>
    decreases |es|
  {
    if |es| == 0 then [] else PointsOf(muscleGroup, es[0]) + Appended(muscleGroup, es[1..])
  }

  /** The values of the ticks in a run of events, in order. */
  function TickValues(es: seq<Event>): seq<int>
    decreases |es|
  {
    if |es| == 0 then []
    else (if es[0].TickEvent? then [TickValue(es[0].sample)] else []) + TickValues(es[1..])
  }

  predicate NoReset(es: seq<Event>) { forall i :: 0 <= i < |es| ==> !es[i].Reset? }

  predicate NoRestart(es: seq<Event>) { forall i :: 0 <= i < |es| ==> !es[i].Reset? && !es[i].Start? }

  lemma ApplyHistory(s: EmgState, e: Event)
    requires !e.Reset? && |s.history| <= HistoryCapacity
    ensures Apply(s, e).history == KeepLast(s.history + PointsOf(s.muscleGroup, e), HistoryCapacity)
    ensures Apply(s, e).muscleGroup == s.muscleGroup
  {
    match e
    case TickEvent(_, _) =>
    case Bluetooth(_) =>
    case Start => assert s.history + [] == s.history;
    case Stop => assert s.history + [] == s.history;
  }

  lemma ApplyPeak(s: EmgState, e: Event)
    requires !e.Reset? && !e.Start?
    ensures e.TickEvent? ==> Apply(s, e).stats.peak == Max(s.stats.peak, TickValue(e.sample))
    ensures e.TickEvent? ==> Apply(s, e).stats.duration == s.stats.duration + 0.5
    ensures !e.TickEvent? ==> Apply(s, e).stats == s.stats
  {
  }

  /** One step of a run without resets: the first event's effect on the history, and the rest of the run. */
  lemma HistoryStep(s: EmgState, es: seq<Event>)
    requires |es| > 0 && NoReset(es) && |s.history| <= HistoryCapacity
    ensures Run(s, es) == Run(Apply(s, es[0]), es[1..])
    ensures Appended(s.muscleGroup, es) == PointsOf(s.muscleGroup, es[0]) + Appended(s.muscleGroup, es[1..])
    ensures Apply(s, es[0]).history == KeepLast(s.history + PointsOf(s.muscleGroup, es[0]), HistoryCapacity)
    ensures Apply(s, es[0]).muscleGroup == s.muscleGroup
    ensures |Apply(s, es[0]).history| <= HistoryCapacity
    ensures NoReset(es[1..])
  {
    assert !es[0].Reset?;
    ApplyHistory(s, es[0]);
    forall i | 0 <= i < |es[1..]| ensures !es[1..][i].Reset? {
      assert es[1..][i] == es[i + 1];
    }
  }

  /**
   * Between resets the history is exactly the last min(50, n) of the n points
   * held and appended so far, oldest first.
   */
  lemma {:induction false} HistoryIsWindow(s: EmgState, es: seq<Event>)
    requires |s.history| <= HistoryCapacity
    requires NoReset(es)
    ensures Run(s, es).history == KeepLast(s.history + Appended(s.muscleGroup, es), HistoryCapacity)
    ensures |Run(s, es).history| <= HistoryCapacity
    decreases |es|
  {
    if |es| == 0 {
      assert s.history + [] == s.history;
    } else {
      HistoryStep(s, es);
      var s1 := Apply(s, es[0]);
      var p0 := PointsOf(s.muscleGroup, es[0]);
      var rest := Appended(s.muscleGroup, es[1..]);
      HistoryIsWindow(s1, es[1..]);
      KeepLastStep(s.history, p0, rest, HistoryCapacity);
    }
  }

  /**
   * With no start or reset in between, the peak is the largest of the old
   * peak and every tick's value, and the duration has grown by half a second
   * per tick.
   */
  lemma {:induction false} PeakIsRunningMax(s: EmgState, es: seq<Event>)
    requires NoRestart(es)
    ensures Run(s, es).stats.peak >= s.stats.peak
    ensures forall i :: 0 <= i < |TickValues(es)| ==> Run(s, es).stats.peak >= TickValues(es)[i]
    ensures Run(s, es).stats.peak == s.stats.peak
         || exists i :: 0 <= i < |TickValues(es)| && Run(s, es).stats.peak == TickValues(es)[i]
    ensures Run(s, es).stats.duration == s.stats.duration + 0.5 * |TickValues(es)| as real
    decreases |es|
  {
    if |es| > 0 {
      var e := es[0];
      var s1 := Apply(s, e);
      var t0: seq<int> := if e.TickEvent? then [TickValue(e.sample)] else [];
      var tail := es[1..];
      var rest := TickValues(tail);
      var tv := TickValues(es);
      assert tv == t0 + rest;
      ApplyPeak(s, e);
      assert s1.stats.peak == if e.TickEvent? then Max(s.stats.peak, t0[0]) else s.stats.peak;
      assert s1.stats.duration == s.stats.duration + 0.5 * |t0| as real;
      assert NoRestart(tail);
      PeakIsRunningMax(s1, tail);
      var r := Run(s1, tail);
      assert Run(s, es) == r;
      forall i | 0 <= i < |tv|
        ensures r.stats.peak >= tv[i]
      {
        if i < |t0| {
          assert tv[i] == t0[0];
        } else {
          assert tv[i] == rest[i - |t0|];
        }
      }
      if r.stats.peak != s1.stats.peak {
        var i :| 0 <= i < |rest| && r.stats.peak == rest[i];
        assert tv[|t0| + i] == r.stats.peak;
      } else if r.stats.peak != s.stats.peak {
        assert tv[0] == r.stats.peak;
      }
    }
  }

  /** Every statistic and every history value is a valid ADC reading. */
  predicate InAdcRange(s: EmgState)
  {
    && 0 <= s.stats.peak <= 1023
    && 0 <= s.stats.current <= 1023
    && 0 <= s.stats.average <= 1023
    && forall i :: 0 <= i < |s.history| ==> 0 <= s.history[i].value <= 1023
  }

  lemma TickKeepsAdcRange(s: EmgState, sample: real, now: string)
    requires InAdcRange(s)
    ensures InAdcRange(Tick(s, sample, now))
  {
    var r := Tick(s, sample, now);
    var all := Values(s.history) + [r.stats.current];
    assert forall i :: 0 <= i < |all| ==> 0 <= all[i] <= 1023;
    AverageBetween(s.history, r.stats.current);
    var p := DataPoint(now, r.currentValue, r.currentVoltage, s.muscleGroup);
    var h := s.history + [p];
    assert forall i :: 0 <= i < |h| ==> 0 <= h[i].value <= 1023;
    assert r.history == h[|h| - |r.history|..];
  }

  /**
   * Without Bluetooth readings, which are not clamped, statistics and history
   * stay inside the ADC range [0, 1023] from any state where they are.
   */
  lemma {:induction false} StatsStayInAdcRange(s: EmgState, es: seq<Event>)
    requires InAdcRange(s)
    requires forall i :: 0 <= i < |es| ==> !es[i].Bluetooth?
    ensures InAdcRange(Run(s, es))
    decreases |es|
  {
    if |es| > 0 {
      var e := es[0];
      if e.TickEvent? {
        TickKeepsAdcRange(s, e.sample, e.now);
      }
      StatsStayInAdcRange(Apply(s, e), es[1..]);
    }
  }
}

=== FILE: login_page.dfy ===
/**
 * The profile form on the landing page: height, weight, age and gender are
 * kept as the text the user typed; BMI is recomputed from the text whenever
 * height or weight changes; the form may be submitted once every field is
 * filled.
 */
module LoginPage {
  import opened Common
  import opened Text
  import Calculations

  datatype UserData = UserData(height: string, weight: string, age: string, gender: string, bmi: real)

  /** The text fields an input change can edit. */
  datatype Field = Height | Weight | Age | Gender

  const InitialData: UserData := UserData("", "", "", "", 0.0)

  function Get(d: UserData, f: Field): string
  {
    match f
    case Height => d.height
    case Weight => d.weight
    case Age => d.age
    case Gender => d.gender
  }

  /** The text parses to a number greater than zero. */
  predicate ParsesPositive(s: string)
  {
    ParseFloat(s).Some? && ParseFloat(s).value > 0.0
  }

  /**
   * BMI from the typed height (cm) and weight (kg); 0 unless both parse to
   * positive numbers (a NaN from unparsable text fails the test too).
   */
  function CalculateBmi(height: string, weight: string): (r: real)
    ensures r >= 0.0
    ensures r > 0.0 <==> ParsesPositive(height) && ParsesPositive(weight)
    ensures r > 0.0 ==> BmiFits(r, ParseFloat(height).value, ParseFloat(weight).value)
  {
    BmiOfParsed(ParseFloat(height), ParseFloat(weight))
  }

  /** The form's BMI from the two parsed numbers, `NaN` being `None`. */
  function BmiOfParsed(h: Option<real>, w: Option<real>): (r: real)
    ensures r >= 0.0
    ensures r > 0.0 <==> h.Some? && h.value > 0.0 && w.Some? && w.value > 0.0
    ensures r > 0.0 ==> BmiFits(r, h.value, w.value)
  {
    if h.Some? && w.Some? && h.value / 100.0 > 0.0 && w.value > 0.0 then
      var m := h.value / 100.0;
      QuotientBySquare(w.value, m);
      w.value / (m * m)
    else 0.0
  }

  /** `bmi` times the square of the height in metres is the weight. */
  predicate BmiFits(bmi: real, heightCm: real, weight: real)
  {
    var m := heightCm / 100.0;
    bmi * m * m == weight
  }

  lemma QuotientBySquare(w: real, m: real)
    requires m > 0.0 && w > 0.0
    ensures w / (m * m) > 0.0 && w / (m * m) * m * m == w
  {
    assert m * m > 0.0;
  }

  /** On positive inputs the form's BMI is the utility's BMI. */
  lemma BmiAgreesWithUtility(height: string, weight: string)
    requires ParsesPositive(height) && ParsesPositive(weight)
    ensures Calculations.CalculateBmi(ParseFloat(height).value, ParseFloat(weight).value)
         == Some(CalculateBmi(height, weight))
  {
    BmiOfParsedAgrees(ParseFloat(height).value, ParseFloat(weight).value);
  }

  lemma BmiOfParsedAgrees(h: real, w: real)
    requires h > 0.0 && w > 0.0
    ensures Calculations.CalculateBmi(h, w) == Some(BmiOfParsed(Some(h), Some(w)))
  {
    var m := h / 100.0;
    assert Calculations.CalculateBmi(h, w).Some?;
    assert Calculations.CalculateBmi(h, w).value == w / (m * m);
    assert BmiOfParsed(Some(h), Some(w)) == w / (m * m);
  }

  /** 180 cm and 81 kg give a BMI of 25. */
  lemma BmiExample()
    ensures CalculateBmi("180", "81") == 25.0
  {
    assert NatToString(180) == "180" by {
      assert NatToString(1) == "1";
      assert NatToString(18) == NatToString(1) + "8";
      assert NatToString(180) == NatToString(18) + "0";
    }
    assert NatToString(81) == "81" by {
      assert NatToString(8) == "8";
      assert NatToString(81) == NatToString(8) + "1";
    }
    ParseFloatOfNat(180);
    ParseFloatOfNat(81);
    assert ParseFloat("180") == Some(180.0) && ParseFloat("81") == Some(81.0);
    assert 81.0 / (1.8 * 1.8) == 25.0;
  }

  /**
   * An input change stores the typed text in its field; BMI is recomputed from
   * the new height and weight when the field is one of those two, and kept
   * otherwise.
   */
  function HandleInputChange(d: UserData, f: Field, value: string): (r: UserData)
    ensures Get(r, f) == value
    ensures forall g :: g != f ==> Get(r, g) == Get(d, g)
    ensures f == Height || f == Weight ==> r.bmi == CalculateBmi(r.height, r.weight)
    ensures f == Age || f == Gender ==> r.bmi == d.bmi
  {
    var newData :=
      match f
      case Height => d.(height := value)
      case Weight => d.(weight := value)
      case Age => d.(age := value)
      case Gender => d.(gender := value);
    if f == Height || f == Weight then newData.(bmi := CalculateBmi(newData.height, newData.weight))
    else newData
  }

  /** The shown BMI belongs to the height and weight now in the form. */
  predicate BmiConsistent(d: UserData)
  {
    d.bmi == CalculateBmi(d.height, d.weight)
  }

  function ApplyEdits(d: UserData, edits: seq<(Field, string)>): UserData
    decreases |edits|
  {
    if |edits| == 0 then d else ApplyEdits(HandleInputChange(d, edits[0].0, edits[0].1), edits[1..])
  }

  /**
   * From a consistent form (the empty form is one), after any sequence of
   * edits the BMI is the one computed from the current height and weight text.
   */
  lemma {:induction false} EditsKeepBmiConsistent(d: UserData, edits: seq<(Field, string)>)
    requires BmiConsistent(d)
    ensures BmiConsistent(ApplyEdits(d, edits))
    decreases |edits|
  {
    if |edits| > 0 {
      var d1 := HandleInputChange(d, edits[0].0, edits[0].1);
      assert Get(d1, Height) == d1.height && Get(d1, Weight) == d1.weight;
      EditsKeepBmiConsistent(d1, edits[1..]);
    }
  }

  lemma InitialFormConsistent()
    ensures BmiConsistent(InitialData)
  {
  }

  /** `getBMIStatus`: the same four bands and cut-offs as the utility's category. */
  function BmiStatus(bmi: real): (c: Calculations.BmiCategory)
    ensures c == Calculations.Underweight <==> bmi < 18.5
    ensures c == Calculations.Normal <==> 18.5 <= bmi < 25.0
    ensures c == Calculations.Overweight <==> 25.0 <= bmi < 30.0
    ensures c == Calculations.Obese <==> 30.0 <= bmi
  {
    Calculations.GetBmiCategory(bmi)
  }

  /** The form is valid exactly when no field is empty. */
  function IsFormValid(d: UserData): (ok: bool)
    ensures ok <==> forall f :: Get(d, f) != ""
  {
    assert Get(d, Height) == d.height && Get(d, Weight) == d.weight;
    assert Get(d, Age) == d.age && Get(d, Gender) == d.gender;
    d.height != "" && d.weight != "" && d.age != "" && d.gender != ""
  }

  /** Submit opens the purpose dialog when the form is valid and otherwise changes nothing. */
  function HandleSubmit(d: UserData, showPurposeModal: bool): (r: bool)
    ensures IsFormValid(d) ==> r
    ensures !IsFormValid(d) ==> r == showPurposeModal
  {
    if IsFormValid(d) then true else showPurposeModal
  }

  /** Filling height, weight, age and gender with non-empty text makes the form valid and submittable. */
  lemma FilledFormIsValid(d: UserData, h: string, w: string, a: string, g: string)
    requires h != "" && w != "" && a != "" && g != ""
    ensures IsFormValid(ApplyEdits(d, [(Height, h), (Weight, w), (Age, a), (Gender, g)]))
    ensures HandleSubmit(ApplyEdits(d, [(Height, h), (Weight, w), (Age, a), (Gender, g)]), false)
  {
    var es := [(Height, h), (Weight, w), (Age, a), (Gender, g)];
    var d1 := HandleInputChange(d, Height, h);
    var d2 := HandleInputChange(d1, Weight, w);
    var d3 := HandleInputChange(d2, Age, a);
    var d4 := HandleInputChange(d3, Gender, g);
    assert ApplyEdits(d, es) == ApplyEdits(d1, es[1..]);
    assert es[1..][0] == (Weight, w) && es[1..][1..][0] == (Age, a);
    assert es[1..][1..][1..][0] == (Gender, g) && es[1..][1..][1..][1..] == [];
    assert ApplyEdits(d1, es[1..]) == ApplyEdits(d2, es[1..][1..]);
    assert ApplyEdits(d2, es[1..][1..]) == ApplyEdits(d3, es[1..][1..][1..]);
    assert ApplyEdits(d3, es[1..][1..][1..]) == ApplyEdits(d4, []);
    assert Get(d4, Height) == h;
  }
}

=== FILE: text.dfy ===
/**
 * Decimal text as the pages produce and read it: `Number.prototype.toString`
 * for integers, `String.prototype.padStart`, and the subset of
 * `Number.parseFloat` that plain decimal form fields need.
 */
module Text {
  import opened Common

  predicate IsDigit(c: char) { '0' <= c <= '9' }

  predicate AllDigits(s: string) { forall i :: 0 <= i < |s| ==> IsDigit(s[i]) }

  function DigitChar(d: nat): (c: char)
    requires d < 10
    ensures IsDigit(c) && c as int - '0' as int == d
  {
    ('0' as int + d) as char
  }

  function DigitValue(c: char): (d: nat)
    requires IsDigit(c)
    ensures d < 10 && DigitChar(d) == c
  {
    c as int - '0' as int
  }

  /** The decimal digits of `n` with no leading zero, as `n.toString()` writes them. */
  function NatToString(n: nat): (s: string)
    ensures 1 <= |s|
    ensures AllDigits(s)
    ensures n < 10 ==> |s| == 1
    ensures 10 <= n < 100 ==> |s| == 2
    ensures 10 <= n ==> s[0] != '0'
    decreases n
  {
    if n < 10 then [DigitChar(n)] else NatToString(n / 10) + [DigitChar(n % 10)]
  }

  /** `i.toString()` for an integer: a minus sign before the digits of a negative value. */
  function IntToString(i: int): (s: string)
    ensures i >= 0 ==> s == NatToString(i)
    ensures i < 0 ==> s == "-" + NatToString(-i)
    ensures i >= 0 ==> AllDigits(s) && DigitsValue(s) == i
    ensures i < 0 ==> |s| >= 2 && s[0] == '-' && AllDigits(s[1..]) && DigitsValue(s[1..]) == -i
  {
    if i < 0 then
      NatToStringRoundTrip(-i);
      assert ("-" + NatToString(-i))[1..] == NatToString(-i);
      "-" + NatToString(-i)
    else
      NatToStringRoundTrip(i);
      NatToString(i)
  }

  function Repeat(c: char, k: nat): (s: string)
    ensures |s| == k
    ensures forall i :: 0 <= i < k ==> s[i] == c
  {
    seq(k, _ => c)
  }

  /** `s.padStart(width, fill)` with a one-character fill. */
  function PadStart(s: string, width: nat, fill: char): (r: string)
    ensures |s| >= width ==> r == s
    ensures |r| == if |s| >= width then |s| else width
    ensures r[|r| - |s|..] == s
    ensures forall i :: 0 <= i < |r| - |s| ==> r[i] == fill
  {
    if |s| >= width then s else Repeat(fill, width - |s|) + s
  }

  /** The number a string of decimal digits denotes, most significant first. */
  function DigitsValue(s: string): nat
    requires AllDigits(s)
    decreases |s|
  {
    if |s| == 0 then 0 else DigitsValue(s[..|s| - 1]) * 10 + DigitValue(s[|s| - 1])
  }

  /** Reading back the digits `toString` writes gives the number written. */
  lemma {:induction false} NatToStringRoundTrip(n: nat)
    ensures DigitsValue(NatToString(n)) == n
    decreases n
  {
    if n >= 10 {
      var s := NatToString(n);
      assert s[..|s| - 1] == NatToString(n / 10);
      NatToStringRoundTrip(n / 10);
    }
  }

  lemma {:induction false} ZerosHaveValueZero(z: string)
    requires forall i :: 0 <= i < |z| ==> z[i] == '0'
    ensures AllDigits(z) && DigitsValue(z) == 0
    decreases |z|
  {
    if |z| > 0 {
      ZerosHaveValueZero(z[..|z| - 1]);
    }
  }

  /** Leading zeros added by `padStart(_, "0")` do not change the value. */
  lemma {:induction false} LeadingZerosIgnored(z: string, s: string)
    requires forall i :: 0 <= i < |z| ==> z[i] == '0'
    requires AllDigits(s)
    ensures AllDigits(z + s) && DigitsValue(z + s) == DigitsValue(s)
    decreases |s|
  {
    if |s| == 0 {
      assert z + s == z;
      ZerosHaveValueZero(z);
    } else {
      LeadingZerosIgnored(z, s[..|s| - 1]);
      assert (z + s)[..|z + s| - 1] == z + s[..|s| - 1];
    }
  }

  /** Length of the longest run of digits at the start of `s`. */
  function DigitRun(s: string): (k: nat)
    ensures k <= |s|
    ensures AllDigits(s[..k])
    ensures k < |s| ==> !IsDigit(s[k])
    decreases |s|
  {
    if |s| == 0 || !IsDigit(s[0]) then 0
    else
      var k := 1 + DigitRun(s[1..]);
      assert forall i :: 1 <= i < k ==> s[..k][i] == s[1..][..k - 1][i - 1];
      k
  }

  function Pow10(k: nat): (p: real)
    ensures p >= 1.0
  {
    if k == 0 then 1.0 else 10.0 * Pow10(k - 1)
  }

  /** The number `whole.frac` denotes. */
  function DecimalValue(whole: string, frac: string): (v: real)
    requires AllDigits(whole) && AllDigits(frac)
    ensures v >= 0.0
  {
    QuotientNonNegative(DigitsValue(frac) as real, Pow10(|frac|));
    DigitsValue(whole) as real + DigitsValue(frac) as real / Pow10(|frac|)
  }

  /**
   * The unsigned part of `Number.parseFloat`: digits and an optional fraction
   * after a point, read from the longest such prefix; `None` when there is no
   * digit there.
   */
  function ParseUnsigned(t: string): (r: Option<real>)
    ensures r.Some? ==> r.value >= 0.0
    ensures |t| == 0 ==> r.None?
    ensures |t| > 0 && !IsDigit(t[0]) && t[0] != '.' ==> r.None?
  {
    var k := DigitRun(t);
    var whole := t[..k];
    var frac := if k < |t| && t[k] == '.' then t[k + 1..][..DigitRun(t[k + 1..])] else "";
    if |whole| == 0 && |frac| == 0 then None else Some(DecimalValue(whole, frac))
  }

  /**
   * `Number.parseFloat` on plain decimal text: an optional sign before the
   * unsigned number; text with no digit there is NaN (`None`).
   */
  function ParseFloat(s: string): (r: Option<real>)
    ensures |s| == 0 ==> r.None?
    ensures |s| > 0 && !IsDigit(s[0]) && s[0] != '-' && s[0] != '+' && s[0] != '.' ==> r.None?
    ensures r.Some? && (|s| == 0 || s[0] != '-') ==> r.value >= 0.0
    ensures |s| > 0 && AllDigits(s) ==> r == Some(DigitsValue(s) as real)
  {
    assert |s| > 0 && AllDigits(s) ==> ParseUnsigned(s) == Some(DigitsValue(s) as real) by {
      if |s| > 0 && AllDigits(s) {
        DigitRunOfDigits(s);
        assert s[..|s|] == s;
      }
    }
    var neg := |s| > 0 && s[0] == '-';
    var body := if |s| > 0 && (s[0] == '-' || s[0] == '+') then s[1..] else s;
    var u := ParseUnsigned(body);
    if u.None? then None else Some(if neg then -u.value else u.value)
  }

  /** A non-negative amount over a positive one is non-negative. */
  lemma QuotientNonNegative(a: real, b: real)
    requires a >= 0.0 && b > 0.0
    ensures a / b >= 0.0
  {
  }

  lemma {:induction false} DigitRunOfDigits(s: string)
    requires AllDigits(s)
    ensures DigitRun(s) == |s|
    decreases |s|
  {
    if |s| > 0 {
      DigitRunOfDigits(s[1..]);
    }
  }

  /** A digit run ends where the digits end. */
  lemma {:induction false} DigitRunStopsAt(x: string, y: string)
    requires AllDigits(x)
    requires |y| == 0 || !IsDigit(y[0])
    ensures DigitRun(x + y) == |x|
    decreases |x|
  {
    if |x| == 0 {
      assert x + y == y;
    } else {
      assert (x + y)[1..] == x[1..] + y;
      DigitRunStopsAt(x[1..], y);
    }
  }

  /** Digits, a point and digits read as the whole part plus the fraction they denote. */
  lemma ParseUnsignedDecimal(w: string, d: string)
    requires |w| > 0 && AllDigits(w) && AllDigits(d)
    ensures ParseUnsigned(w + "." + d) == Some(DecimalValue(w, d))
  {
    var t := w + "." + d;
    assert t == w + ("." + d);
    DigitRunStopsAt(w, "." + d);
    assert t[..|w|] == w;
    assert t[|w| + 1..] == d;
    DigitRunOfDigits(d);
    assert d[..|d|] == d;
    ParseUnsignedFields(t, w, d);
  }

  /** The reader's result when the digit run, the point and the fraction of `t` are known. */
  lemma ParseUnsignedFields(t: string, w: string, d: string)
    requires |w| > 0 && DigitRun(t) == |w| && |w| < |t| && t[|w|] == '.' && t[..|w|] == w
    requires t[|w| + 1..][..DigitRun(t[|w| + 1..])] == d
    ensures AllDigits(w) && AllDigits(d)
    ensures ParseUnsigned(t) == Some(DecimalValue(w, d))
  {
  }

  /** Through `parseFloat`, which sees no sign in front of a digit, the same decimal comes out. */
  lemma ParseFloatReadsDecimal(w: string, d: string)
    requires |w| > 0 && AllDigits(w) && AllDigits(d)
    ensures ParseFloat(w + "." + d) == Some(DecimalValue(w, d))
  {
    var t := w + "." + d;
    assert t[0] == w[0];
    ParseUnsignedDecimal(w, d);
    ParseFloatUnsigned(t);
  }

  /** `parseFloat` of digits, a point and digits is the whole part plus the fraction over its power of ten. */
  lemma ParseFloatDecimal(w: string, d: string)
    requires |w| > 0 && AllDigits(w) && AllDigits(d)
    ensures ParseFloat(w + "." + d) == Some(DigitsValue(w) as real + DigitsValue(d) as real / Pow10(|d|))
  {
    ParseFloatReadsDecimal(w, d);
    DecimalValueIs(w, d, ParseFloat(w + "." + d));
  }

  /** Unfolds `DecimalValue` inside a known result, so the caller's context stays small. */
  lemma DecimalValueIs(w: string, d: string, x: Option<real>)
    requires AllDigits(w) && AllDigits(d)
    requires x == Some(DecimalValue(w, d))
    ensures x == Some(DigitsValue(w) as real + DigitsValue(d) as real / Pow10(|d|))
  {

  }

  /** Text that starts with neither sign is read by the unsigned reader alone. */
  lemma ParseFloatUnsigned(t: string)
    requires |t| == 0 || (t[0] != '-' && t[0] != '+')
    ensures ParseFloat(t) == ParseUnsigned(t)
  {
  }

  /** A leading minus negates whatever the unsigned rest parses to. */
  lemma ParseFloatNegative(t: string)
    requires |t| == 0 || (t[0] != '-' && t[0] != '+')
    ensures ParseFloat("-" + t).Some? <==> ParseFloat(t).Some?
    ensures ParseFloat(t).Some? ==> ParseFloat("-" + t).value == -ParseFloat(t).value
  {
    assert ("-" + t)[1..] == t;
  }

  /** A decimal a number input produces: "72.5" reads as 72.5. */
  lemma ParseFloatDecimalExample()
    ensures ParseFloat("72.5") == Some(72.5)
  {
    assert DecimalValue("72", "5") == 72.5 by {
      assert DigitsValue("72") == 72 by {
        assert "72"[..1] == "7" && "7"[..0] == "";
      }
      assert DigitsValue("5") == 5 by {
        assert "5"[..0] == "";
      }
      assert Pow10(1) == 10.0;
    }
    ParseFloatReadsDecimal("72", "5");
    assert "72" + "." + "5" == "72.5";
  }

  /** A negative number input: "-3" reads as -3. */
  lemma ParseFloatNegativeExample()
    ensures ParseFloat("-3") == Some(-3.0)
  {
    assert DigitsValue("3") == 3 by {
      assert "3"[..0] == "";
    }
    assert ParseFloat("3") == Some(3.0);
    ParseFloatNegative("3");
    assert "-" + "3" == "-3";
  }

  /** Parsing the text of a whole number gives that number back. */
  lemma ParseFloatOfNat(n: nat)
    ensures ParseFloat(NatToString(n)) == Some(n as real)
  {
    var s := NatToString(n);
    DigitRunOfDigits(s);
    assert s[..|s|] == s;
    NatToStringRoundTrip(n);
  }
}
